=== FILE: README.md ===
# ddns — a Dafny model of the update engine

`ddns` is a dynamic-DNS client. It watches the host's external IP and, when the IP
changes, rewrites the DNS "A" records of the configured names at Cloudflare or
DigitalOcean. The repository holds two generations of this engine, and both are
modelled here:

- **The newer tree, `pkg/ddns/...`.**
  - Host names are classified into `Domain`s: a registrable domain, its labels, and a
    provider name.
  - A `Provider` capability offers `Records` and `UpdateRecord`.
  - The updater fetches each domain's records from its provider and rewrites those
    that do not already hold the new IP, stopping at the first error.
  - A provider factory, the checker and the runner complete the tree.
- **The legacy tree: the root files and `provider/...`.**
  - Each provider groups labels itself and updates everything in one `Update(ip)`.
  - The updater is an append-only list of providers.

What each module models:

| module | models |
|---|---|
| `Classify` | `parseDomainRecord`/`parseSubdomain` in both variants, and `createDomainMap` (a shared grouping loop parameterised by the variant) |
| `Ddns`, `LegacyDomain` | `Domain`, `HasRecord` and `ParseDomains` of each generation |
| `Updater` | the newer updater |
| `WaitGroup` | the in-flight counter both updaters keep |
| `Factory` | the newer provider factory |
| `DigitalOcean`, `Cloudflare`, `Noop` | the newer provider adapters |
| `LegacyUpdater`, `LegacyDigitalOcean`, `LegacyCloudflare`, `LegacyNoop` | the legacy updater and providers |
| `Checker`, `Runner` | the change detection and the scheduled run |
| `Seqs` | the generic filter-and-build loop shared by the adapters' `Records`, the updater's skipping of current records and the legacy Cloudflare selection |
| `FailFast` | the generic "perform calls in order, return the first error" loop; every such Go loop, written as a recursive function, is proved equal to it |
| `Strings`, `Strconv` | Go's `strings.Index`, `strconv.Itoa` and `strconv.Atoi` (64-bit `int`) |

How the model treats what lies outside the program:

- **Foreign code becomes parameters.** The public-suffix lookup (`EffectiveTLDPlusOne`)
  is an uninterpreted, possibly failing function `string -> Result<string>`. Nothing
  is assumed about its answers.
- **API clients become datatypes of functions.** The godo and cloudflare-go clients
  take request values and return results or errors. The legacy adapters and every
  fail-fast loop return the calls they make (`Run(err, calls)`), so properties are
  stated over call traces. The newer adapters return what Go returns. The requests
  they send are given by members of their own: `DigitalOcean.EditRequest`,
  `Cloudflare.UpdateRequest` and `Cloudflare.RecordsCalls`.
  `Cloudflare.RecordsReadsOnlyItsCalls` shows that `Records` depends on nothing but
  the answers to the calls `RecordsCalls` lists.
- **The external-IP lookup is an input.** It is a function from the endpoint to a
  result.
- **Concurrency is sequential.** Go map iteration order is an input that must
  enumerate the keys. The output of `ParseDomains` is a set. Goroutines run one after
  another. Each `Add(1)`/`Done()` pair is recorded as an event, and the events are
  proved to balance.

The legacy `checker.go` and `runner.go` contain the same logic as
`pkg/ddns/checker/checker.go` and `pkg/ddns/runner/runner.go`:

- the same branches of `IPHasChanged`;
- the same `run` step over `knownIP`;
- the same order in `Stop`.

The `Checker` and `Runner` modules therefore model both files. The table cites the
newer file.

The newer `parseDomainRecord` returns the record itself when `"." + domain` does not occur
in it, while both legacy variants return `""`.

Three properties show how the legacy `HasRecord` differs from the newer one:

- `LegacyDomain.FullNameMatchesOnlyInCurrent`: for every domain and every dot-free
  label `part`, the newer `HasRecord` accepts `part + "." + domain` exactly when `part`
  is configured. The legacy one compares that name verbatim with the labels.
- `LegacyDomain.ParsedDomainsMissFullNames`: no label the legacy `ParseDomains` builds
  contains "." + domain, so such a domain matches no name containing "." + domain.
- `LegacyCloudflare.FullyQualifiedNamesAreMissed`: Cloudflare names records with fully
  qualified names, so for any listing the legacy Cloudflare `Update` never updates a
  record whose name contains "." + domain. A "www" record configured from
  "www.example.com" is never selected. `LegacyCloudflare.ConfiguredHostNotUpdated`
  shows this for any one host configured on its own, and `LegacyDomain.FullNameExample`
  on that one name.

`Ddns.HasRecord` and `LegacyDomain.HasRecord` are predicates with no contract of their
own. The `HasRecord…` lemma rows of the table state what they do.

## Model

| member | source | states |
|---|---|---|
| Strings.Index | pkg/ddns/domain.go:90 | -1 exactly when the separator does not occur; otherwise the position of its first occurrence |
| Strconv.Itoa | pkg/ddns/provider/digitalocean/digitalocean.go:55 | a minus sign exactly for negative numbers, then digits without leading zeros whose value is the magnitude |
| Strconv.DigitsCanonical | pkg/ddns/provider/digitalocean/digitalocean.go:55 | a digit string without leading zeros is the decimal form of its own value: the decimal form is unique |
| Strconv.ItoaUnique | pkg/ddns/provider/digitalocean/digitalocean.go:55 | any string meeting `Itoa`'s contract for `n` is `Itoa(n)`, so the printed ID is exactly Go's decimal form |
| Strconv.Atoi | pkg/ddns/provider/digitalocean/digitalocean.go:74-77 | an accepted ID is an optional sign followed by decimal digits and fits 64 bits; the empty string is refused |
| Strconv.AtoiItoa | pkg/ddns/provider/digitalocean/digitalocean.go:55-74 | `Atoi` recovers every 64-bit integer `Itoa` printed, so the ID built by `Records` parses back in `UpdateRecord` |
| Strconv.AtoiSignedDigits | pkg/ddns/provider/digitalocean/digitalocean.go:74-77 | an optional "+" or "-" followed by at least one digit is accepted exactly when its signed value fits 64 bits, and yields that value |
| Strconv.AtoiLeadingZero | pkg/ddns/provider/digitalocean/digitalocean.go:74-77 | a leading zero changes neither acceptance nor value, so "007" is the ID 7 |
| Classify.ParseDomainRecord | pkg/ddns/domain.go:85-96 | "@" for the domain itself; the record cut at the first occurrence of "." + domain; the record verbatim when there is none; always "@" or a prefix of the record |
| Classify.LegacyParseDomainRecord | provider/domain.go:77-88 | as the newer variant, but "" when "." + domain does not occur; `parseSubdomain` of the legacy DigitalOcean provider is the same code |
| Classify.SingleLabelRoundTrip | provider/digitalocean/digitalocean.go:93-104 | a dot-free label joined to a domain with "." is split back into that label by both variants |
| Classify.LabelFreeOfSeparator | pkg/ddns/domain.go:85-96 | no label of either variant contains "." + domain |
| Classify.ParseDomainRecordIdempotent | pkg/ddns/domain.go:85-96 | normalising an already normalised label (other than the domain name) changes nothing |
| Classify.GroupAppend | pkg/ddns/domain.go:62-71 | grouping a concatenation of records is the concatenation of the groupings: labels stay in input order per domain |
| Classify.ResolvedGroupsNonEmpty | pkg/ddns/domain.go:62-71 | every registrable domain some record resolves to receives at least one label, in both variants |
| Classify.GroupFreeOfSeparator | provider/domain.go:51-66 | no grouped label contains the separator of its own domain |
| Classify.AddRecords | pkg/ddns/domain.go:59-74 | the labels of the records before the first failing lookup are appended under their domains, duplicates kept; the error is that lookup's |
| Classify.AddRecordsCount | provider/domain.go:51-66 | the number of labels grows by exactly the number of records that resolved |
| Classify.CreateDomainMapCount | pkg/ddns/domain.go:62-71 | when every lookup succeeds, the map holds exactly as many labels as there were records |
| Ddns.HasRecordApex | pkg/ddns/domain.go:25-35 | the domain name matches exactly when "@" is configured |
| Ddns.HasRecordFullName | pkg/ddns/domain.go:25-35 | a fully qualified single-label name matches exactly when its label is configured |
| Ddns.HasRecordRelativeName | pkg/ddns/domain.go:26 | a name without "." + domain is compared verbatim |
| Ddns.HasRecordOwnLabels | pkg/ddns/domain.go:28-32 | every configured label that is neither the domain name nor contains "." + domain is found |
| Ddns.ParseDomains | pkg/ddns/domain.go:38-57 | no domains and the first lookup error on failure; otherwise one domain per distinct registrable domain, with the given provider and its grouped, non-empty labels |
| LegacyDomain.HasRecordApex | provider/domain.go:16-28 | the domain name matches exactly when "@" is configured |
| LegacyDomain.HasRecordVerbatim | provider/domain.go:17-25 | any other name is compared verbatim against the labels |
| LegacyDomain.HasRecordAgreesOnRelativeNames | provider/domain.go:16-19 | the legacy and newer `HasRecord` agree on the domain name and on names without "." + domain |
| LegacyDomain.FullNameMatchesOnlyInCurrent | provider/domain.go:16-28 | for a dot-free `part`, `part + "." + domain` matches in the newer `HasRecord` exactly when `part` is configured, and in the legacy one only when that full name is configured |
| LegacyDomain.FullNameExample | provider/domain.go:17-19 | "www.example.com" matches a domain configured with "www" in the newer `HasRecord` and not in the legacy one |
| LegacyDomain.ParseDomains | provider/domain.go:31-49 | no domains and the first lookup error on failure; otherwise one domain per distinct registrable domain with its grouped legacy labels |
| LegacyDomain.ParsedDomainsMissFullNames | provider/domain.go:16-28 | a domain built by the legacy `ParseDomains` matches no name that contains "." + domain |
| LegacyDomain.SingleHostParses | provider/domain.go:31-49 | a single host `part + "." + domain` with a dot-free `part` becomes one domain holding the label `part` |
| Seqs.FilterMap | pkg/ddns/provider/digitalocean/digitalocean.go:45-62 | the filter-and-build loop returns a value for every accepted element and only for accepted elements; it is empty exactly when none is accepted |
| Seqs.FilterMapAppend | pkg/ddns/provider/cloudflare/cloudflare.go:46-61 | the loop keeps input order: filtering a concatenation filters each part |
| FailFast.Execute | pkg/ddns/updater/updater.go:112-122 | calls are a prefix of the plan; no error exactly when every attempt succeeds; on error the last call made is the one that failed and all earlier ones succeeded |
| FailFast.ExecuteAppend | provider/digitalocean/digitalocean.go:71-87 | running two plans one after the other is running their concatenation, stopping inside the first if it fails |
| FailFast.Chain | provider/cloudflare/cloudflare.go:36-59 | steps run in order until the first failing one; its error is returned and no later step runs |
| Updater.New | pkg/ddns/updater/updater.go:22-24 | a new updater has no domains and no providers |
| Updater.RegisterProvider | pkg/ddns/updater/updater.go:27-33 | the provider is found under its name, replacing any earlier one; other names keep their providers |
| Updater.RegisterDomains | pkg/ddns/updater/updater.go:36-44 | the new domains follow the old ones, in order |
| Updater.Pending | pkg/ddns/updater/updater.go:100-110 | exactly the records not holding the IP, each with only its content replaced by the IP; empty exactly when all hold it |
| Updater.UpdateRecords | pkg/ddns/updater/updater.go:99-129 | the record loop is the fail-fast run of the pending updates |
| Updater.UpdateDomain | pkg/ddns/updater/updater.go:88-132 | unregistered provider: error before any call; failed `Records`: wrapped error, no update; otherwise one `Records` call then the fail-fast pending updates, all carrying the IP |
| Updater.UpToDateDomainMakesNoUpdates | pkg/ddns/updater/updater.go:100-107 | a domain whose records all hold the IP costs one `Records` call and no update |
| Updater.SuccessfulDomainUpdatesEveryStaleRecord | pkg/ddns/updater/updater.go:99-112 | on success every record not holding the IP was updated, in provider order |
| Updater.RegisteredProviderServes | pkg/ddns/updater/updater.go:89-97 | a domain is served by the provider registered under its provider name |
| Updater.Update | pkg/ddns/updater/updater.go:47-79 | exactly one task per registered domain, in order, each with its own outcome; the wait-group events balance |
| WaitGroup.AppendTask | pkg/ddns/updater/updater.go:53-56 | an `Add`/`Done` pair keeps the counter non-negative and ending at zero |
| Factory.NewFactory | pkg/ddns/provider/factory.go:11-13 | a fresh factory returns nil for every name |
| Factory.Lookup | pkg/ddns/provider/factory.go:23-30 | the provider registered under the name, nil when there is none |
| Factory.Register | pkg/ddns/provider/factory.go:15-21 | nil leaves every lookup unchanged; otherwise the provider is found under its name and other names resolve as before |
| Factory.RegisterIdempotent | pkg/ddns/provider/factory.go:20 | registering the same provider twice is registering it once |
| DigitalOcean.Convert | pkg/ddns/provider/digitalocean/digitalocean.go:54-60 | the ID is the decimal form of the upstream ID and parses back to it; domain, name, type and content come from the domain and the upstream record |
| DigitalOcean.Keep | pkg/ddns/provider/digitalocean/digitalocean.go:45-62 | exactly the "A" records the domain has, converted; none dropped, none invented |
| DigitalOcean.Records | pkg/ddns/provider/digitalocean/digitalocean.go:37-66 | a failed listing gives no records and its error; every record returned is an "A" record of the domain |
| DigitalOcean.EditRequest | pkg/ddns/provider/digitalocean/digitalocean.go:70-77 | no request when the ID does not parse; otherwise the record's content for its domain and parsed ID |
| DigitalOcean.UpdateRecord | pkg/ddns/provider/digitalocean/digitalocean.go:69-84 | a bad ID fails with the parse error and no request; otherwise the result of the edit request |
| DigitalOcean.RecordsThenUpdate | pkg/ddns/provider/digitalocean/digitalocean.go:55-78 | a record from `Records` with new content edits the upstream record it came from |
| DigitalOcean.AsProvider | pkg/ddns/provider/digitalocean/digitalocean.go:32-34 | the provider is named "digitalocean" and performs `Records` and `UpdateRecord` |
| Cloudflare.Convert | pkg/ddns/provider/cloudflare/cloudflare.go:51-58 | fields copied from the upstream record, domain from the domain, and the upstream record stored under "cloudflareDNSRecord" |
| Cloudflare.Keep | pkg/ddns/provider/cloudflare/cloudflare.go:46-61 | exactly the records the domain has, converted; none dropped, none invented |
| Cloudflare.Records | pkg/ddns/provider/cloudflare/cloudflare.go:33-64 | a failed zone lookup or listing gives no records and its error; otherwise the kept records |
| Cloudflare.RecordsCalls | pkg/ddns/provider/cloudflare/cloudflare.go:36-44 | the listing of "A" records is requested only after a successful zone lookup, with the zone it returned |
| Cloudflare.RecordsReadsOnlyItsCalls | pkg/ddns/provider/cloudflare/cloudflare.go:36-44 | a client answering the listed calls the same way yields the same calls and the same records and error from `Records` |
| Cloudflare.UpdateRequest | pkg/ddns/provider/cloudflare/cloudflare.go:68-75 | no request without a Cloudflare record in the metadata; otherwise that record with only its content changed, under its zone and the record's ID |
| Cloudflare.UpdateRecord | pkg/ddns/provider/cloudflare/cloudflare.go:67-81 | missing metadata fails without a request; otherwise the result of the update request |
| Cloudflare.RecordsThenUpdate | pkg/ddns/provider/cloudflare/cloudflare.go:51-75 | a record from `Records` with new content stores its upstream record, changed only in content |
| Cloudflare.ForeignRecordRefused | pkg/ddns/provider/cloudflare/cloudflare.go:68-71 | a record without metadata is refused |
| Cloudflare.AsProvider | pkg/ddns/provider/cloudflare/cloudflare.go:28-30 | the provider is named "cloudflare" and performs `Records` and `UpdateRecord` |
| Noop.RecordsOf | pkg/ddns/provider/noop/noop.go:21-28 | one record per label, same order, with only name and domain set |
| Noop.Records | pkg/ddns/provider/noop/noop.go:18-31 | never fails and returns a record per configured label |
| Noop.UpdateRecord | pkg/ddns/provider/noop/noop.go:34-36 | always succeeds |
| Noop.AsProvider | pkg/ddns/provider/noop/noop.go:13-15 | the provider is named "noop", fetches the label records and accepts every update |
| Noop.NoopDomainUpdate | pkg/ddns/updater/updater.go:94-129 | with the no-op provider a domain succeeds, updating every label once when the IP is non-empty and none otherwise |
| Checker.New | pkg/ddns/checker/checker.go:19-21 | a new checker has an empty endpoint |
| Checker.SetEndpoint | pkg/ddns/checker/checker.go:24-26 | only the endpoint changes |
| Checker.IPHasChanged | pkg/ddns/checker/checker.go:29-40 | a failed lookup gives ("", false, error); otherwise the looked-up IP, changed exactly when it differs from the known IP |
| Checker.ReportedIPIsStable | pkg/ddns/checker/checker.go:35-39 | once the reported IP is known, the same answer reports no change |
| Runner.New | pkg/ddns/runner/runner.go:22-24 | a new runner knows no IP and has no job |
| Runner.Start | pkg/ddns/runner/runner.go:27-37 | a running job is stopped first, then a job "@every " + interval is started; the known IP is kept |
| Runner.RestartReplacesJob | pkg/ddns/runner/runner.go:28-34 | starting twice stops exactly the first job and leaves the second scheduled |
| Runner.Stop | pkg/ddns/runner/runner.go:40-48 | exactly one updater stop, last; before it exactly one cron stop when a job is present and none otherwise |
| Runner.Run | pkg/ddns/runner/runner.go:50-84 | the checker is asked with the known IP; an error or no change asks nothing of the updater; a change asks for one update with the run's correlation ID and becomes the known IP |
| Runner.RunConverges | pkg/ddns/runner/runner.go:60-83 | after a successful lookup the known IP is the reported one; a failed lookup changes nothing |
| Runner.UpdateOnlyOnChange | pkg/ddns/runner/runner.go:60-81 | an update is requested exactly when the reported IP differs from the known one |
| Runner.SecondRunQuiet | pkg/ddns/runner/runner.go:60-83 | two runs seeing the same IP request at most one update, and the second none |
| LegacyUpdater.New | updater.go:18-20 | a new updater has no providers |
| LegacyUpdater.RegisterProvider | updater.go:23-33 | the provider is appended after the earlier ones |
| LegacyUpdater.RegisterKeepsDuplicates | updater.go:28 | registering the same provider twice keeps both entries |
| LegacyUpdater.Update | updater.go:36-82 | one dispatch per registered provider, in order, whatever the others returned; none without providers; the wait-group events balance |
| LegacyDigitalOcean.SetRecords | provider/digitalocean/digitalocean.go:31-44 | labels appended under their domains in order; stops at the first lookup error, keeping labels added before it |
| LegacyDigitalOcean.Edits | provider/digitalocean/digitalocean.go:71-87 | every edit sets an "A" record named by a configured label to the IP, and every such record is edited |
| LegacyDigitalOcean.EditsPerRecord | provider/digitalocean/digitalocean.go:76-86 | an "A" record is edited once per occurrence of its name among the labels, so duplicate labels repeat edits |
| LegacyDigitalOcean.EditLabels | provider/digitalocean/digitalocean.go:76-86 | the label loop is the fail-fast run of the repeated edit |
| LegacyDigitalOcean.EditRecords | provider/digitalocean/digitalocean.go:71-88 | the record loop is the fail-fast run of the planned edits |
| LegacyDigitalOcean.UpdateDomain | provider/digitalocean/digitalocean.go:63-91 | one listing call; its error ends the domain; otherwise the fail-fast planned edits for the domain's labels |
| LegacyDigitalOcean.Update | provider/digitalocean/digitalocean.go:52-61 | succeeds exactly when every domain does, whatever the iteration order (clients being stateless); on error it stopped right after the first failing domain |
| LegacyDigitalOcean.UpdateReachesEveryDomain | provider/digitalocean/digitalocean.go:53-58 | after a successful update every domain's calls were made |
| LegacyCloudflare.SetDomains | provider/cloudflare/cloudflare.go:30-32 | the domain list is replaced |
| LegacyCloudflare.Updates | provider/cloudflare/cloudflare.go:47-56 | exactly the records the domain accepts, each with only its content set to the IP, under the looked-up zone and its ID |
| LegacyCloudflare.UpdateRecords | provider/cloudflare/cloudflare.go:47-58 | the record loop is the fail-fast run of the planned updates |
| LegacyCloudflare.UpdateDomain | provider/cloudflare/cloudflare.go:36-58 | zone lookup, then listing, then updates; each error ends the domain with no further call |
| LegacyCloudflare.Update | provider/cloudflare/cloudflare.go:35-62 | no call without domains; succeeds exactly when every domain does; on error it stopped after the first failing domain |
| LegacyCloudflare.CurrentRecordsAreRewritten | provider/cloudflare/cloudflare.go:48-52 | a matching record that already holds the IP is still sent |
| LegacyCloudflare.FullyQualifiedNamesAreMissed | provider/cloudflare/cloudflare.go:47-52 | for a domain from the legacy `ParseDomains` and any listing, no record whose name contains "." + domain is updated |
| LegacyCloudflare.ConfiguredHostNotUpdated | provider/cloudflare/cloudflare.go:47-52 | a host `part + "." + domain` configured alone gives the label `part`, and the record listed under that full name is not updated |
| LegacyNoop.SetRecords | provider/noop/noop.go:14-16 | the record list is replaced |
| LegacyNoop.Update | provider/noop/noop.go:19-21 | succeeds for every IP and leaves the provider unchanged |

## Left out

- **I/O and wiring.** Not modelled:
  - `cmd/ddns/main.go` and `main.go`: flags, configuration, secrets, signals;
  - every provider constructor: tokens, the oauth2 `tokenSource` and client creation.
- **The external-IP lookup.** `lookupExternalIPAddress` is an HTTP GET with JSON
  decoding. Its result is an input of `Checker.IPHasChanged`.
- **The public-suffix lookup.** `EffectiveTLDPlusOne` and the wrapper `parseDomain` are
  an uninterpreted oracle.
- **The API clients.** The godo and cloudflare-go network calls are function-valued
  client fields. The limits of this choice:
  - A client is stateless: identical requests always get identical answers. The same
    holds for a `Provider`'s `records` and `updateRecord`.
  - So a repeated identical edit cannot fail after an earlier copy succeeded. The
    legacy DigitalOcean provider repeats edits for duplicate labels, and the real API
    can fail the later copy.
  - The order independence of the legacy DigitalOcean `Update` also rests on clients
    having no call history.
  - The DigitalOcean listing is the first page only. Both DigitalOcean adapters pass
    nil `ListOptions`, so the model returns one page and does not paginate.
- **Logging.** All zerolog output, including `MarshalZerologObject`, is omitted; it has
  no effect on results.
- **The cron scheduler and correlation IDs.** Not modelled:
  - the `robfig/cron` scheduler: `Start` records the schedule it would register;
  - the error from `AddFunc`: Go discards it, so an invalid interval starts a cron
    with no job. The model records the start either way;
  - the periodic calls of `run`;
  - `xid` correlation-ID generation: the ID is an input of `Runner.Run`.
- **Concurrency.** Goroutine interleavings and the blocking of `Wait` in both updaters'
  `Stop` are not modelled. Tasks run to completion in dispatch order, which gives the
  same outcomes because each task reads only the updater's state, its domain and the
  IP. What `Stop` waits for is stated as `WaitGroup.Balanced`.
- **Go map iteration order.** `ParseDomains` returns a set. The legacy DigitalOcean
  `Update` takes the order as an input that enumerates the keys.
- Strconv.Atoi: syntax and range errors are not distinguished; both are `NumError`.
- Strconv.Atoi: Go's `int` is assumed to be 64 bits wide.
- **Go's `strings.Index` counts bytes.** The model works on characters. The cut prefix
  is the same string either way.
- **The legacy `provider.Provider` interface** asks for `SetDomains`, but the legacy
  DigitalOcean provider and the no-op provider offer `SetRecords`. Each provider is
  modelled with the methods it declares. `LegacyUpdater.Provider` keeps only what the
  updater uses: a name and `Update`.
- **The `Name()` methods of the legacy providers** return constants. They are the
  `Name` constants of each module.

=== FILE: base.dfy ===
/** Shared vocabulary: optional values, results, and the errors the system can report.

    A Go `error` that may be nil is an `Option<Error>`; a Go pair `(T, error)` whose
    value half is discarded on failure is a `Result<T>`.
 */
module Base {

  datatype Option<+T> = None | Some(value: T)

  datatype Result<+T> = Ok(value: T) | Err(error: Error)

  /** The errors raised or passed through by the core. Errors coming from foreign code
      (the public-suffix table, the HTTP lookup, the provider APIs) are opaque messages. */
  datatype Error =
    | ApiError(msg: string)           // returned by a foreign client or lookup
    | ProviderNotFound                // no provider registered under the domain's provider name
    | RecordsFailed(cause: Error)     // a provider's Records call failed, wrapped by the updater
    | NumError(input: string)         // strconv.Atoi rejected the input
    | MissingCloudflareRecord         // record metadata lacks the Cloudflare record

  /** The public-suffix lookup `EffectiveTLDPlusOne`: an uninterpreted, possibly failing oracle. */
  type Lookup = string -> Result<string>

  /** Value stored under `k`, or the empty sequence: Go's zero value for a missing map key. */
  function Get<K, V>(m: map<K, seq<V>>, k: K): seq<V>
  {
    if k in m then m[k] else []
  }

  /** Number of occurrences of `x` in `s`. */
  function Count<T(==)>(s: seq<T>, x: T): nat
  {
    multiset(s)[x]
  }
}

=== FILE: checker.dfy ===
/** The external-IP checker (pkg/ddns/checker/checker.go and its legacy twin
    checker.go). The HTTP request to the endpoint and the decoding of its JSON answer
    are one parameter: what the endpoint answered, or the error. */
module Checker {
  import opened Base

  datatype Checker = Checker(endpoint: string)

  /** `New`: the endpoint starts empty until `SetEndpoint`. */
  function New(): (c: Checker)
    ensures c.endpoint == ""
  {
    Checker("")
  }

  function SetEndpoint(c: Checker, endpoint: string): (r: Checker)
    ensures r.endpoint == endpoint
  {
    c.(endpoint := endpoint)
  }

  /** The triple `IPHasChanged` returns. */
  datatype Check = Check(ip: string, changed: bool, err: Option<Error>)

  /** `IPHasChanged`: ask the endpoint for the external IP and compare it with the
      known one. A failed lookup reports an error, no IP and no change; otherwise the
      IP is the one looked up, reported as changed exactly when it differs. */
  function IPHasChanged(c: Checker, knownIP: string, fetch: string -> Result<string>): (r: Check)
    ensures fetch(c.endpoint).Err? ==> r == Check("", false, Some(fetch(c.endpoint).error))
    ensures fetch(c.endpoint).Ok? ==> r.err.None? && r.ip == fetch(c.endpoint).value
    ensures r.changed <==> fetch(c.endpoint).Ok? && fetch(c.endpoint).value != knownIP
  {
    match fetch(c.endpoint)
    case Err(e) => Check("", false, Some(e))
    case Ok(externalIP) =>
      if externalIP == knownIP then Check(knownIP, false, None) else Check(externalIP, true, None)
  }

  /** Once the reported IP is taken as the known one, the same answer is no change. */
  lemma ReportedIPIsStable(c: Checker, knownIP: string, fetch: string -> Result<string>)
    ensures var r := IPHasChanged(c, knownIP, fetch);
            r.err.None? ==> !IPHasChanged(c, r.ip, fetch).changed
  {
  }
}

=== FILE: classify.dfy ===
/** Record classification: turning a flat list of host names into labels grouped under
    their registrable domains.

    Two generations of the code differ only in what a host name that does not contain
    "." + domain becomes: the newer `parseDomainRecord` (pkg/ddns) returns it verbatim,
    the legacy one (provider/domain.go, and `parseSubdomain` of the legacy DigitalOcean
    provider) returns the empty label. Both cut at the FIRST occurrence of "." + domain,
    which is not the same as stripping a suffix. */
module Classify {
  import opened Base
  import opened Strings
  import opened Seqs

  /** The label of the apex record. */
  const Apex: string := "@"

  datatype Variant = Current | Legacy

  /** Newer `parseDomainRecord`: apex marker, prefix before the first "." + domain, or
      the record itself when that separator does not occur. */
  function ParseDomainRecord(record: string, domain: string): (r: string)
    ensures record == domain ==> r == Apex
    ensures record != domain && !Occurs(record, "." + domain) ==> r == record
    ensures forall p {:trigger IsFirstOccurrence(record, "." + domain, p)} ::
              record != domain && IsFirstOccurrence(record, "." + domain, p) ==> r == record[..p]
    ensures r == Apex || IsPrefix(r, record)
  {
    if record == domain then Apex
    else
      var pos := Index(record, "." + domain);
      if pos == -1 then record else record[..pos]
  }

  /** Legacy `parseDomainRecord` and `parseSubdomain`: like the newer one, but a record
      without the separator yields the empty label. */
  function LegacyParseDomainRecord(record: string, domain: string): (r: string)
    ensures record == domain ==> r == Apex
    ensures record != domain && !Occurs(record, "." + domain) ==> r == ""
    ensures forall p {:trigger IsFirstOccurrence(record, "." + domain, p)} ::
              record != domain && IsFirstOccurrence(record, "." + domain, p) ==> r == record[..p]
    ensures r == Apex || IsPrefix(r, record)
  {
    if record == domain then Apex
    else
      var pos := Index(record, "." + domain);
      if pos == -1 then "" else record[..pos]
  }

  function Label(v: Variant, record: string, domain: string): string
  {
    match v
    case Current => ParseDomainRecord(record, domain)
    case Legacy => LegacyParseDomainRecord(record, domain)
  }

  /** A single DNS label followed by "." + domain classifies back to that label, in both
      generations: the first separator can only start at the dot after the label. */
  lemma {:induction false} SingleLabelRoundTrip(part: string, domain: string)
    requires '.' !in part
    ensures ParseDomainRecord(part + "." + domain, domain) == part
    ensures LegacyParseDomainRecord(part + "." + domain, domain) == part
  {
    var record := part + "." + domain;
    var sep := "." + domain;
    assert record[|part|..|part| + |sep|] == sep;
    assert OccursAt(record, sep, |part|);
    forall q | 0 <= q < |part|
      ensures !OccursAt(record, sep, q)
    {
      assert record[q] == part[q] != '.';
      assert sep[0] == '.';
    }
    assert IsFirstOccurrence(record, sep, |part|);
    assert record[..|part|] == part;
  }

  /** No label contains the separator "." + domain: a label is "@", the prefix before
      the first separator, the record itself when the separator does not occur in it,
      or the empty label. */
  lemma {:induction false} LabelFreeOfSeparator(v: Variant, record: string, domain: string)
    ensures !Occurs(Label(v, record, domain), "." + domain)
  {
    var sep := "." + domain;
    var part := Label(v, record, domain);
    if record != domain && Occurs(record, sep) {
      var pos := Index(record, sep);
      assert part == record[..pos];
      assert IsFirstOccurrence(record, sep, pos);
      forall q | 0 <= q <= |part|
        ensures !OccursAt(part, sep, q)
      {
        if q + |sep| <= |part| {
          assert part[q..q + |sep|] == record[q..q + |sep|];
          assert !OccursAt(record, sep, q);
        }
      }
    } else if record == domain {
      forall q | 0 <= q <= |Apex|
        ensures !OccursAt(Apex, sep, q)
      {
        if q + |sep| <= |Apex| {
          assert sep[0] == '.' != Apex[q];
        }
      }
    }
  }

  /** Classifying a label again gives the same label, unless the label is the domain
      name itself: every label produced is "@", verbatim, or free of the separator. */
  lemma ParseDomainRecordIdempotent(record: string, domain: string)
    requires ParseDomainRecord(record, domain) != domain
    ensures ParseDomainRecord(ParseDomainRecord(record, domain), domain)
            == ParseDomainRecord(record, domain)
  {
    LabelFreeOfSeparator(Current, record, domain);
  }

  /** Labels, in input order and with duplicates, of the records whose registrable
      domain is `domain`. */
  function Group(v: Variant, psl: Lookup, records: seq<string>, domain: string): seq<string>
    decreases |records|
  {
    if |records| == 0 then []
    else
      (if psl(records[0]) == Ok(domain) then [Label(v, records[0], domain)] else [])
      + Group(v, psl, records[1..], domain)
  }

  /** Grouping distributes over concatenation of the input: later records land after
      earlier ones. */
  lemma {:induction false} GroupAppend(v: Variant, psl: Lookup, a: seq<string>, b: seq<string>, domain: string)
    ensures Group(v, psl, a + b, domain) == Group(v, psl, a, domain) + Group(v, psl, b, domain)
    decreases |a|
  {
    if |a| > 0 {
      assert (a + b)[0] == a[0];
      assert (a + b)[1..] == a[1..] + b;
      GroupAppend(v, psl, a[1..], b, domain);
    } else {
      assert a + b == b;
    }
  }

  /** Every registrable domain some record resolves to receives at least one label. */
  lemma {:induction false} GroupNonEmpty(v: Variant, psl: Lookup, records: seq<string>, d: string)
    requires exists i :: 0 <= i < |records| && psl(records[i]) == Ok(d)
    ensures |Group(v, psl, records, d)| > 0
    decreases |records|
  {
    if psl(records[0]) != Ok(d) {
      var i :| 0 <= i < |records| && psl(records[i]) == Ok(d);
      assert records[1..][i - 1] == records[i];
      GroupNonEmpty(v, psl, records[1..], d);
    }
  }

  /** Every registrable domain the records resolve to receives at least one label. */
  lemma ResolvedGroupsNonEmpty(v: Variant, psl: Lookup, records: seq<string>)
    ensures forall name :: name in DomainsOf(psl, records, |records|) ==>
                           |Group(v, psl, records, name)| > 0
  {
    forall name | name in DomainsOf(psl, records, |records|)
      ensures |Group(v, psl, records, name)| > 0
    {
      GroupNonEmpty(v, psl, records, name);
    }
  }

  /** No grouped label contains the separator of its domain. */
  lemma {:induction false} GroupFreeOfSeparator(v: Variant, psl: Lookup, records: seq<string>, domain: string)
    ensures forall x :: x in Group(v, psl, records, domain) ==> !Occurs(x, "." + domain)
    decreases |records|
  {
    if |records| > 0 {
      LabelFreeOfSeparator(v, records[0], domain);
      GroupFreeOfSeparator(v, psl, records[1..], domain);
    }
  }

  /** Number of leading records whose public-suffix lookup succeeds. */
  function Resolved(psl: Lookup, records: seq<string>): (n: nat)
    ensures n <= |records|
    ensures forall i :: 0 <= i < n ==> psl(records[i]).Ok?
    ensures n < |records| ==> psl(records[n]).Err?
    decreases |records|
  {
    if |records| == 0 || psl(records[0]).Err? then 0 else 1 + Resolved(psl, records[1..])
  }

  /** Registrable domains of the first `n` records. */
  function DomainsOf(psl: Lookup, records: seq<string>, n: nat): set<string>
    requires n <= |records|
  {
    set i | 0 <= i < n && psl(records[i]).Ok? :: psl(records[i]).value
  }

  /** Outcome of `createDomainMap` / `SetRecords`: the label map built so far and the
      error that stopped the loop, if any. */
  datatype Grouping = Grouping(labels: map<string, seq<string>>, err: Option<Error>)

  /** The grouping loop of `createDomainMap` and legacy `SetRecords`, starting from the
      map `m`: append each record's label under its registrable domain, and return at
      the first lookup error with the labels added so far still in the map. */
  function AddRecords(v: Variant, psl: Lookup, m: map<string, seq<string>>, records: seq<string>): (g: Grouping)
    ensures var n := Resolved(psl, records);
            && g.err == (if n < |records| then Some(psl(records[n]).error) else None)
            && g.labels.Keys == m.Keys + DomainsOf(psl, records, n)
            && forall d :: d in g.labels ==> g.labels[d] == Get(m, d) + Group(v, psl, records[..n], d)
    decreases |records|
  {
    if |records| == 0 then Grouping(m, None)
    else match psl(records[0])
      case Err(e) => Grouping(m, Some(e))
      case Ok(d) =>
        var m' := m[d := Get(m, d) + [Label(v, records[0], d)]];
        var g := AddRecords(v, psl, m', records[1..]);
        AddRecordsStep(v, psl, m, records, g.labels);
        g
  }

  /** The inductive step of `AddRecords`, relating the result for the tail (under the
      extended map) to the whole input. */
  lemma AddRecordsStep(v: Variant, psl: Lookup, m: map<string, seq<string>>, records: seq<string>, labels: map<string, seq<string>>)
    requires |records| > 0 && psl(records[0]).Ok?
    requires var d0 := psl(records[0]).value;
             var m' := m[d0 := Get(m, d0) + [Label(v, records[0], d0)]];
             var n := Resolved(psl, records[1..]);
             && labels.Keys == m'.Keys + DomainsOf(psl, records[1..], n)
             && forall d :: d in labels ==> labels[d] == Get(m', d) + Group(v, psl, records[1..][..n], d)
    ensures var n := Resolved(psl, records);
            && labels.Keys == m.Keys + DomainsOf(psl, records, n)
            && forall d :: d in labels ==> labels[d] == Get(m, d) + Group(v, psl, records[..n], d)
  {
    var d0 := psl(records[0]).value;
    var n := Resolved(psl, records);
    var l0 := Label(v, records[0], d0);
    var m' := m[d0 := Get(m, d0) + [l0]];
    var n' := Resolved(psl, records[1..]);
    assert n == 1 + n';
    forall d | d in labels
      ensures labels[d] == Get(m, d) + Group(v, psl, records[..n], d)
    {
      GroupStep(v, psl, m, records, n, d, labels[d]);
    }
    DomainsOfCons(psl, records, n);
  }

  lemma GroupStep(v: Variant, psl: Lookup, m: map<string, seq<string>>, records: seq<string>, n: nat, d: string, ls: seq<string>)
    requires 1 <= n <= |records| && psl(records[0]).Ok?
    requires var d0 := psl(records[0]).value;
             var m' := m[d0 := Get(m, d0) + [Label(v, records[0], d0)]];
             ls == Get(m', d) + Group(v, psl, records[1..][..n - 1], d)
    ensures ls == Get(m, d) + Group(v, psl, records[..n], d)
  {
    var d0 := psl(records[0]).value;
    GroupPrefixCons(v, psl, records, n, d);
    if d == d0 {
      ConcatAssociates(Get(m, d0), [Label(v, records[0], d0)], Group(v, psl, records[1..][..n - 1], d));
    }
  }

  lemma GroupPrefixCons(v: Variant, psl: Lookup, records: seq<string>, n: nat, d: string)
    requires 1 <= n <= |records|
    ensures Group(v, psl, records[..n], d)
            == (if psl(records[0]) == Ok(d) then [Label(v, records[0], d)] else [])
               + Group(v, psl, records[1..][..n - 1], d)
  {
    assert records[..n][1..] == records[1..][..n - 1];
    assert records[..n][0] == records[0];
  }

  lemma DomainsOfCons(psl: Lookup, records: seq<string>, n: nat)
    requires 1 <= n <= |records| && psl(records[0]).Ok?
    ensures DomainsOf(psl, records, n) == {psl(records[0]).value} + DomainsOf(psl, records[1..], n - 1)
  {
    var tail := records[1..];
    forall d | d in DomainsOf(psl, records, n)
      ensures d == psl(records[0]).value || d in DomainsOf(psl, tail, n - 1)
    {
      var i :| 0 <= i < n && psl(records[i]).Ok? && psl(records[i]).value == d;
      if i > 0 {
        assert tail[i - 1] == records[i];
      }
    }
    forall d | d in DomainsOf(psl, tail, n - 1)
      ensures d in DomainsOf(psl, records, n)
    {
      var i :| 0 <= i < n - 1 && psl(tail[i]).Ok? && psl(tail[i]).value == d;
      assert records[i + 1] == tail[i];
    }
  }

  /** Total number of labels held in a label map. */
  ghost function TotalLabels(m: map<string, seq<string>>): nat
    decreases m.Keys
  {
    if m.Keys == {} then 0
    else
      var k :| k in m;
      assert (m - {k}).Keys < m.Keys;
      |m[k]| + TotalLabels(m - {k})
  }

  /** `TotalLabels` does not depend on the key it happens to pick first. */
  lemma {:induction false} TotalLabelsRemove(m: map<string, seq<string>>, k: string)
    requires k in m
    ensures TotalLabels(m) == |m[k]| + TotalLabels(m - {k})
    decreases m.Keys
  {
    var j :| j in m && TotalLabels(m) == |m[j]| + TotalLabels(m - {j});
    if j != k {
      var mj := m - {j};
      var mk := m - {k};
      assert mj.Keys < m.Keys && k in mj;
      assert mk.Keys < m.Keys && j in mk;
      TotalLabelsRemove(mj, k);
      TotalLabelsRemove(mk, j);
      TotalLabelsSwap(m, k, j);
    }
  }

  lemma TotalLabelsSwap(m: map<string, seq<string>>, k: string, j: string)
    requires k in m && j in m && j != k
    requires TotalLabels(m) == |m[j]| + TotalLabels(m - {j})
    requires TotalLabels(m - {j}) == |(m - {j})[k]| + TotalLabels(m - {j} - {k})
    requires TotalLabels(m - {k}) == |(m - {k})[j]| + TotalLabels(m - {k} - {j})
    ensures TotalLabels(m) == |m[k]| + TotalLabels(m - {k})
  {
    assert (m - {j})[k] == m[k];
    assert (m - {k})[j] == m[j];
    assert m - {j} - {k} == m - {k} - {j};
  }

  /** Appending one label under one key adds one to the total. */
  lemma TotalLabelsAppend(m: map<string, seq<string>>, k: string, x: string)
    ensures TotalLabels(m[k := Get(m, k) + [x]]) == TotalLabels(m) + 1
  {
    var m' := m[k := Get(m, k) + [x]];
    TotalLabelsRemove(m', k);
    assert m' - {k} == m - {k};
    if k in m {
      TotalLabelsRemove(m, k);
    } else {
      assert m - {k} == m;
    }
  }

  /** Grouping neither loses nor invents labels: every resolved record adds exactly one
      label, duplicates included. */
  lemma {:induction false} AddRecordsCount(v: Variant, psl: Lookup, m: map<string, seq<string>>, records: seq<string>)
    ensures TotalLabels(AddRecords(v, psl, m, records).labels) == TotalLabels(m) + Resolved(psl, records)
    decreases |records|
  {
    if |records| > 0 && psl(records[0]).Ok? {
      var d := psl(records[0]).value;
      var m' := m[d := Get(m, d) + [Label(v, records[0], d)]];
      AddRecordsCount(v, psl, m', records[1..]);
      TotalLabelsAppend(m, d, Label(v, records[0], d));
    }
  }

  /** `createDomainMap` on a fresh map: when every lookup succeeds, the map holds
      exactly as many labels as there were records. */
  lemma CreateDomainMapCount(v: Variant, psl: Lookup, records: seq<string>)
    ensures var g := AddRecords(v, psl, map[], records);
            g.err.None? ==> TotalLabels(g.labels) == |records|
  {
    AddRecordsCount(v, psl, map[], records);
    var empty: map<string, seq<string>> := map[];
    assert empty.Keys == {};
  }
}

=== FILE: cloudflare.dfy ===
/** The Cloudflare provider of the newer code base
    (pkg/ddns/provider/cloudflare/cloudflare.go). The cloudflare-go client is a
    parameter: the zone ID of a name, a typed listing of a zone, and a record update. */
module Cloudflare {
  import opened Base
  import opened Upstream
  import opened Ddns
  import opened Seqs

  const Name := "cloudflare"

  /** Key under which a provider record carries its upstream record. */
  const RecordMetadataKey := "cloudflareDNSRecord"

  datatype Client = Client(
    zoneIdByName: string -> Result<string>,
    dnsRecords: (string, string) -> Result<seq<CfRecord>>,
    update: CfUpdate -> Option<Error>)

  /** The provider record built from an upstream record the domain is configured for. */
  function Convert(domain: Domain, r: CfRecord): (x: ProviderRecord)
    ensures x.id == r.id && x.domain == domain.name && x.name == r.name
    ensures x.typ == r.typ && x.content == r.content
    ensures x.metadata.Keys == {RecordMetadataKey} && x.metadata[RecordMetadataKey] == CloudflareRecord(r)
  {
    ProviderRecord(r.id, domain.name, r.name, r.typ, r.content, map[RecordMetadataKey := CloudflareRecord(r)])
  }

  /** The filtering loop of `Records`: only the domain's configured names, in listing
      order (`Seqs.FilterMapAppend` states the order and multiplicity). */
  function Keep(domain: Domain, rs: seq<CfRecord>): (out: seq<ProviderRecord>)
    ensures |out| <= |rs|
    ensures forall x :: x in out ==>
              exists i :: 0 <= i < |rs| && HasRecord(domain, rs[i].name) && x == Convert(domain, rs[i])
    ensures forall i :: 0 <= i < |rs| && HasRecord(domain, rs[i].name) ==> Convert(domain, rs[i]) in out
  {
    FilterMap(rs, (r: CfRecord) => HasRecord(domain, r.name), (r: CfRecord) => Convert(domain, r))
  }

  /** `Records`: look up the zone, list its "A" records, keep the configured ones. A
      failing zone lookup ends the operation before any listing. */
  function Records(c: Client, domain: Domain): (f: Fetched)
    ensures c.zoneIdByName(domain.name).Err? ==>
              f == Fetched([], Some(c.zoneIdByName(domain.name).error))
    ensures c.zoneIdByName(domain.name).Ok? ==>
              var listing := c.dnsRecords(c.zoneIdByName(domain.name).value, "A");
              && (listing.Err? ==> f == Fetched([], Some(listing.error)))
              && (listing.Ok? ==> f == Fetched(Keep(domain, listing.value), None))
    ensures forall x :: x in f.records ==> x.domain == domain.name && HasRecord(domain, x.name)
  {
    match c.zoneIdByName(domain.name)
    case Err(e) => Fetched([], Some(e))
    case Ok(zone) =>
      match c.dnsRecords(zone, "A")
      case Err(e) => Fetched([], Some(e))
      case Ok(rs) => Fetched(Keep(domain, rs), None)
  }

  /** A call `Records` makes on the Cloudflare API. */
  datatype Call = ZoneLookup(name: string) | ListRecords(zoneId: string, typ: string)

  /** The calls `Records` makes: the zone lookup, then, only if it succeeded, the
      listing of the zone's "A" records. */
  function RecordsCalls(c: Client, domain: Domain): (cs: seq<Call>)
    ensures |cs| >= 1 && cs[0] == ZoneLookup(domain.name)
    ensures |cs| == 1 <==> c.zoneIdByName(domain.name).Err?
    ensures |cs| == 2 ==> cs[1] == ListRecords(c.zoneIdByName(domain.name).value, "A")
    ensures |cs| <= 2
  {
    match c.zoneIdByName(domain.name)
    case Err(_) => [ZoneLookup(domain.name)]
    case Ok(zone) => [ZoneLookup(domain.name), ListRecords(zone, "A")]
  }

  /** Two clients give the same answer to a call. */
  predicate SameAnswer(c1: Client, c2: Client, call: Call)
  {
    match call
    case ZoneLookup(name) => c1.zoneIdByName(name) == c2.zoneIdByName(name)
    case ListRecords(zone, typ) => c1.dnsRecords(zone, typ) == c2.dnsRecords(zone, typ)
  }

  /** `RecordsCalls` lists every call `Records` makes: a client that answers those calls
      as `c1` does, however it answers anything else, makes the same calls and yields
      the same records and error. */
  lemma RecordsReadsOnlyItsCalls(c1: Client, c2: Client, domain: Domain)
    requires forall k :: 0 <= k < |RecordsCalls(c1, domain)| ==> SameAnswer(c1, c2, RecordsCalls(c1, domain)[k])
    ensures RecordsCalls(c2, domain) == RecordsCalls(c1, domain)
    ensures Records(c2, domain) == Records(c1, domain)
  {
    var cs := RecordsCalls(c1, domain);
    assert SameAnswer(c1, c2, cs[0]);
    if |cs| == 2 {
      assert SameAnswer(c1, c2, cs[1]);
    }
  }

  /** The update request `UpdateRecord` sends for a record: the upstream record from
      the metadata with the record's content, under that record's zone and the
      record's ID; None when the metadata holds no upstream record and no request is
      made. */
  function UpdateRequest(record: ProviderRecord): (q: Option<CfUpdate>)
    ensures q.None? <==>
              RecordMetadataKey !in record.metadata || !record.metadata[RecordMetadataKey].CloudflareRecord?
    ensures q.Some? ==>
              var cf := record.metadata[RecordMetadataKey].rec;
              && q.value.zoneId == cf.zoneId && q.value.recordId == record.id
              && q.value.rec.content == record.content
              && q.value.rec.(content := cf.content) == cf
  {
    if RecordMetadataKey in record.metadata && record.metadata[RecordMetadataKey].CloudflareRecord? then
      var cf := record.metadata[RecordMetadataKey].rec;
      Some(CfUpdate(cf.zoneId, record.id, cf.(content := record.content)))
    else None
  }

  /** `UpdateRecord`: without a Cloudflare record in the metadata it fails before any
      request; otherwise it returns what the update request returns. */
  function UpdateRecord(c: Client, record: ProviderRecord): (r: Option<Error>)
    ensures UpdateRequest(record).None? ==> r == Some(MissingCloudflareRecord)
    ensures UpdateRequest(record).Some? ==> r == c.update(UpdateRequest(record).value)
  {
    if RecordMetadataKey in record.metadata && record.metadata[RecordMetadataKey].CloudflareRecord? then
      var cf := record.metadata[RecordMetadataKey].rec;
      c.update(CfUpdate(cf.zoneId, record.id, cf.(content := record.content)))
    else Some(MissingCloudflareRecord)
  }

  /** Round trip between the two operations: a record obtained from `Records`, with new
      content, stores the upstream record it came from, changed only in its content,
      under that record's own zone and ID. */
  lemma RecordsThenUpdate(c: Client, domain: Domain, ip: string)
    requires c.zoneIdByName(domain.name).Ok?
    requires c.dnsRecords(c.zoneIdByName(domain.name).value, "A").Ok?
    ensures var rs := c.dnsRecords(c.zoneIdByName(domain.name).value, "A").value;
            forall x :: x in Records(c, domain).records ==>
              exists i :: 0 <= i < |rs| && x.name == rs[i].name &&
                UpdateRequest(x.(content := ip)) == Some(CfUpdate(rs[i].zoneId, rs[i].id, rs[i].(content := ip)))
  {
    var rs := c.dnsRecords(c.zoneIdByName(domain.name).value, "A").value;
    forall x | x in Records(c, domain).records
      ensures exists i :: 0 <= i < |rs| && x.name == rs[i].name &&
                UpdateRequest(x.(content := ip)) == Some(CfUpdate(rs[i].zoneId, rs[i].id, rs[i].(content := ip)))
    {
      var i :| 0 <= i < |rs| && HasRecord(domain, rs[i].name) && x == Convert(domain, rs[i]);
      assert x.(content := ip).metadata[RecordMetadataKey] == CloudflareRecord(rs[i]);
    }
  }

  /** A record built by another provider (no metadata) is refused without a request. */
  lemma ForeignRecordRefused(c: Client, record: ProviderRecord)
    requires record.metadata == map[]
    ensures UpdateRecord(c, record) == Some(MissingCloudflareRecord)
  {
  }

  /** The provider capability backed by a client. */
  function AsProvider(c: Client): (p: Provider)
    ensures p.name == Name
    ensures forall d :: p.records(d) == Records(c, d)
    ensures forall x :: p.updateRecord(x) == UpdateRecord(c, x)
  {
    Provider(Name, d => Records(c, d), x => UpdateRecord(c, x))
  }
}

=== FILE: ddns.dfy ===
/** The shapes and classification rules of the newer code base (pkg/ddns): domains,
    provider records, the provider capability, `HasRecord` and `ParseDomains`. */
module Ddns {
  import opened Base
  import opened Strings
  import opened Classify
  import opened Upstream

  /** A registrable domain, its labels in configuration order, and the name of the
      provider that serves it. */
  datatype Domain = Domain(name: string, records: seq<string>, provider: string)

  /** Provider-private data a record carries between `Records` and `UpdateRecord`
      (Go's `map[string]interface{}`): a Cloudflare record, or something else. */
  datatype MetaValue = CloudflareRecord(rec: CfRecord) | Opaque(tag: string)

  datatype ProviderRecord = ProviderRecord(
    id: string,
    domain: string,
    name: string,
    typ: string,
    content: string,
    metadata: map<string, MetaValue>)

  /** Result of a provider's `Records`: the records and the error, both as returned. */
  datatype Fetched = Fetched(records: seq<ProviderRecord>, err: Option<Error>)

  /** The provider capability: a name, `Records` and `UpdateRecord`. A concrete provider
      supplies the two operations as total functions over its (abstracted) upstream. */
  datatype Provider = Provider(
    name: string,
    records: Domain -> Fetched,
    updateRecord: ProviderRecord -> Option<Error>)

  /** `Domain.HasRecord`: normalise the name as configuration does, then look it up. */
  predicate HasRecord(d: Domain, input: string)
  {
    ParseDomainRecord(input, d.name) in d.records
  }

  /** The domain name itself matches exactly when the apex label is configured. */
  lemma HasRecordApex(d: Domain)
    ensures HasRecord(d, d.name) <==> Apex in d.records
  {
  }

  /** A fully qualified single-label name matches exactly when its label is configured. */
  lemma HasRecordFullName(d: Domain, part: string)
    requires '.' !in part
    ensures HasRecord(d, part + "." + d.name) <==> part in d.records
  {
    SingleLabelRoundTrip(part, d.name);
  }

  /** A relative name (one not containing "." + domain, as DigitalOcean reports them)
      is compared verbatim. */
  lemma HasRecordRelativeName(d: Domain, input: string)
    requires input != d.name && !Occurs(input, "." + d.name)
    ensures HasRecord(d, input) <==> input in d.records
  {
  }

  /** A label that is not the domain name and contains no "." + domain matches itself,
      so every such configured label is found by `HasRecord`. */
  lemma HasRecordOwnLabels(d: Domain)
    ensures forall i ::
              (0 <= i < |d.records| && d.records[i] != d.name && !Occurs(d.records[i], "." + d.name))
              ==> HasRecord(d, d.records[i])
  {
  }

  /** Result of `ParseDomains`: Go returns a slice in map-iteration order, so the
      domains are a set here. */
  datatype Parsed = Parsed(domains: set<Domain>, err: Option<Error>)

  /** `ParseDomains`: group the records with `createDomainMap` and build one Domain per
      registrable domain; any lookup failure yields no domains and the first error. */
  function ParseDomains(psl: Lookup, records: seq<string>, provider: string): (r: Parsed)
    ensures var n := Resolved(psl, records);
            n < |records| ==> r == Parsed({}, Some(psl(records[n]).error))
    ensures r.err.None? <==> forall i :: 0 <= i < |records| ==> psl(records[i]).Ok?
    ensures forall d :: d in r.domains ==>
              && d.provider == provider
              && d.records == Group(Current, psl, records, d.name)
              && |d.records| > 0
    ensures r.err.None? ==>
              forall name :: name in DomainsOf(psl, records, |records|) <==>
                             exists d :: d in r.domains && d.name == name
    ensures forall a, b :: a in r.domains && b in r.domains && a.name == b.name ==> a == b
  {
    var g := AddRecords(Current, psl, map[], records);
    if g.err.Some? then Parsed({}, g.err)
    else
      assert records[..|records|] == records;
      ResolvedGroupsNonEmpty(Current, psl, records);
      var ds := set name | name in g.labels :: Domain(name, g.labels[name], provider);
      assert forall name :: name in g.labels ==> Domain(name, g.labels[name], provider) in ds;
      Parsed(ds, None)
  }
}

=== FILE: digitalocean.dfy ===
/** The DigitalOcean provider of the newer code base
    (pkg/ddns/provider/digitalocean/digitalocean.go). The godo client is a parameter:
    a listing of a domain's records and an edit of one record. */
module DigitalOcean {
  import opened Base
  import opened Strconv
  import opened Upstream
  import opened Ddns
  import opened Seqs

  const Name := "digitalocean"

  datatype Client = Client(
    list: string -> Result<seq<DoRecord>>,
    edit: DoEdit -> Option<Error>)

  /** A listed record is kept when it is an "A" record the domain is configured for. */
  predicate Kept(domain: Domain, r: DoRecord)
  {
    r.typ == "A" && HasRecord(domain, r.name)
  }

  /** The provider record built from a kept upstream record: the numeric ID printed in
      decimal, the domain's name, and the record's name, type and data. */
  function Convert(domain: Domain, r: DoRecord): (x: ProviderRecord)
    ensures x.id == Itoa(r.id) && Atoi(x.id) == Ok(r.id as int)
    ensures x.domain == domain.name && x.name == r.name && x.typ == r.typ
    ensures x.content == r.data && x.metadata == map[]
  {
    AtoiItoa(r.id);
    ProviderRecord(Itoa(r.id), domain.name, r.name, r.typ, r.data, map[])
  }

  /** The filtering loop of `Records`: the kept records, converted, in listing order
      (`Seqs.FilterMapAppend` states the order and multiplicity). */
  function Keep(domain: Domain, rs: seq<DoRecord>): (out: seq<ProviderRecord>)
    ensures |out| <= |rs|
    ensures forall x :: x in out ==> exists i :: 0 <= i < |rs| && Kept(domain, rs[i]) && x == Convert(domain, rs[i])
    ensures forall i :: 0 <= i < |rs| && Kept(domain, rs[i]) ==> Convert(domain, rs[i]) in out
  {
    FilterMap(rs, r => Kept(domain, r), r => Convert(domain, r))
  }

  /** `Records`: list the domain's records; on failure return no records and the error. */
  function Records(c: Client, domain: Domain): (f: Fetched)
    ensures c.list(domain.name).Err? ==> f == Fetched([], Some(c.list(domain.name).error))
    ensures c.list(domain.name).Ok? ==> f.err.None? && f.records == Keep(domain, c.list(domain.name).value)
    ensures forall x :: x in f.records ==>
              x.domain == domain.name && x.typ == "A" && HasRecord(domain, x.name)
  {
    match c.list(domain.name)
    case Err(e) => Fetched([], Some(e))
    case Ok(rs) => Fetched(Keep(domain, rs), None)
  }

  /** The edit request `UpdateRecord` sends for a record, or None when its ID does not
      parse and no request is made. */
  function EditRequest(record: ProviderRecord): (q: Option<DoEdit>)
    ensures q.None? <==> Atoi(record.id).Err?
    ensures q.Some? ==>
              q.value.id as int == Atoi(record.id).value &&
              q.value.domain == record.domain && q.value.data == record.content
  {
    match Atoi(record.id)
    case Err(_) => None
    case Ok(id) => Some(DoEdit(record.domain, id, record.content))
  }

  /** `UpdateRecord`: parse the ID and send the record's content as the new data; an ID
      that does not parse fails with the parse error before any request. */
  function UpdateRecord(c: Client, record: ProviderRecord): (r: Option<Error>)
    ensures EditRequest(record).None? ==> r == Some(Atoi(record.id).error)
    ensures EditRequest(record).Some? ==> r == c.edit(EditRequest(record).value)
  {
    match Atoi(record.id)
    case Err(e) => Some(e)
    case Ok(id) => c.edit(DoEdit(record.domain, id, record.content))
  }

  /** Round trip between the two operations: a record obtained from `Records`, with new
      content, edits the very upstream record it came from, in the same domain. */
  lemma RecordsThenUpdate(c: Client, domain: Domain, ip: string)
    requires c.list(domain.name).Ok?
    ensures var rs := c.list(domain.name).value;
            forall x :: x in Records(c, domain).records ==>
              exists i :: 0 <= i < |rs| && Kept(domain, rs[i]) && x.name == rs[i].name &&
                EditRequest(x.(content := ip)) == Some(DoEdit(domain.name, rs[i].id, ip))
  {
    var rs := c.list(domain.name).value;
    forall x | x in Records(c, domain).records
      ensures exists i :: 0 <= i < |rs| && Kept(domain, rs[i]) && x.name == rs[i].name &&
                EditRequest(x.(content := ip)) == Some(DoEdit(domain.name, rs[i].id, ip))
    {
      var i :| 0 <= i < |rs| && Kept(domain, rs[i]) && x == Convert(domain, rs[i]);
      assert Atoi(x.(content := ip).id) == Ok(rs[i].id as int);
    }
  }

  /** The provider capability backed by a client. */
  function AsProvider(c: Client): (p: Provider)
    ensures p.name == Name
    ensures forall d :: p.records(d) == Records(c, d)
    ensures forall x :: p.updateRecord(x) == UpdateRecord(c, x)
  {
    Provider(Name, d => Records(c, d), x => UpdateRecord(c, x))
  }
}

=== FILE: factory.dfy ===
/** The provider factory (pkg/ddns/provider/factory.go): providers by name, where a nil
    provider is ignored on registration and an unknown name yields nil. */
module Factory {
  import opened Base
  import opened Ddns

  datatype Factory = Factory(providers: map<string, Provider>)

  /** A fresh factory knows no provider. */
  function NewFactory(): (f: Factory)
    ensures forall name :: Lookup(f, name).None?
  {
    Factory(map[])
  }

  /** `Provider(name)`: the provider registered under the name, or nil. */
  function Lookup(f: Factory, name: string): (r: Option<Provider>)
    ensures r.Some? <==> name in f.providers
    ensures r.Some? ==> r.value == f.providers[name]
  {
    if name in f.providers then Some(f.providers[name]) else None
  }

  /** `RegisterProvider`: a nil provider leaves the factory as it was; otherwise the
      provider is found under its own name afterwards and every other name resolves as
      before. */
  function Register(f: Factory, p: Option<Provider>): (r: Factory)
    ensures p.None? ==> forall name :: Lookup(r, name) == Lookup(f, name)
    ensures p.Some? ==> Lookup(r, p.value.name) == Some(p.value)
    ensures p.Some? ==> forall name :: name != p.value.name ==> Lookup(r, name) == Lookup(f, name)
  {
    match p
    case None => f
    case Some(q) => Factory(f.providers[q.name := q])
  }

  /** Registering the same provider twice is registering it once. */
  lemma RegisterIdempotent(f: Factory, p: Option<Provider>)
    ensures forall name :: Lookup(Register(Register(f, p), p), name) == Lookup(Register(f, p), name)
  {
  }
}

=== FILE: failfast.dfy ===
/** The fail-fast loop shape that recurs throughout the providers and the updater:
    perform calls in order and return the first error, making no further calls. */
module FailFast {
  import opened Base
  import opened Seqs

  /** Outcome of a fail-fast loop: the error it returned (None for nil) and the calls
      it made, in the order it made them. */
  datatype Run<C> = Run(err: Option<Error>, calls: seq<C>)

  /** Attempt every planned call in order; stop right after the first one that fails. */
  function Execute<C>(plan: seq<C>, attempt: C -> Option<Error>): (r: Run<C>)
    ensures |r.calls| <= |plan| && r.calls == plan[..|r.calls|]
    ensures r.err.None? <==> forall i :: 0 <= i < |plan| ==> attempt(plan[i]).None?
    ensures r.err.None? ==> r.calls == plan
    ensures r.err.Some? ==> |r.calls| >= 1 && attempt(r.calls[|r.calls| - 1]) == r.err
    ensures forall i :: 0 <= i < |r.calls| - 1 ==> attempt(r.calls[i]).None?
    decreases |plan|
  {
    if |plan| == 0 then Run(None, [])
    else match attempt(plan[0])
      case Some(e) => Run(Some(e), [plan[0]])
      case None =>
        var rest := Execute(plan[1..], attempt);
        Run(rest.err, [plan[0]] + rest.calls)
  }

  /** One step of `Execute` when the first call succeeds. */
  lemma ExecuteSucceedingHead<C>(plan: seq<C>, attempt: C -> Option<Error>)
    requires |plan| > 0 && attempt(plan[0]).None?
    ensures Execute(plan, attempt)
         == Run(Execute(plan[1..], attempt).err, [plan[0]] + Execute(plan[1..], attempt).calls)
  {
  }

  /** Running two plans back to back is running their concatenation. */
  lemma {:induction false} ExecuteAppend<C>(a: seq<C>, b: seq<C>, attempt: C -> Option<Error>)
    ensures Execute(a, attempt).err.Some? ==> Execute(a + b, attempt) == Execute(a, attempt)
    ensures Execute(a, attempt).err.None? ==>
              Execute(a + b, attempt)
              == Run(Execute(b, attempt).err, Execute(a, attempt).calls + Execute(b, attempt).calls)
    decreases |a|
  {
    if |a| == 0 {
      assert a + b == b;
    } else if attempt(a[0]).None? {
      var ab := a + b;
      assert ab[0] == a[0];
      assert ab[1..] == a[1..] + b;
      ExecuteAppend(a[1..], b, attempt);
      ExecuteSucceedingHead(ab, attempt);
      ExecuteSucceedingHead(a, attempt);
      ConcatAssociates([a[0]], Execute(a[1..], attempt).calls, Execute(b, attempt).calls);
    } else {
      assert (a + b)[0] == a[0];
    }
  }

  /** All calls the steps would make if every step ran. */
  function AllCalls<S, C>(steps: seq<S>, run: S -> Run<C>): seq<C>
    decreases |steps|
  {
    if |steps| == 0 then [] else run(steps[0]).calls + AllCalls(steps[1..], run)
  }

  /** Every call of every step is among the calls of all steps. */
  lemma {:induction false} AllCallsContains<S, C>(steps: seq<S>, run: S -> Run<C>, i: nat, k: nat)
    requires i < |steps| && k < |run(steps[i]).calls|
    ensures run(steps[i]).calls[k] in AllCalls(steps, run)
    decreases |steps|
  {
    if i > 0 {
      assert steps[1..][i - 1] == steps[i];
      AllCallsContains(steps[1..], run, i - 1, k);
    }
  }

  /** Number of leading steps that succeed. */
  function Passed<S, C>(steps: seq<S>, run: S -> Run<C>): (n: nat)
    ensures n <= |steps|
    ensures forall i :: 0 <= i < n ==> run(steps[i]).err.None?
    ensures n < |steps| ==> run(steps[n]).err.Some?
    decreases |steps|
  {
    if |steps| == 0 || run(steps[0]).err.Some? then 0 else 1 + Passed(steps[1..], run)
  }

  /** Perform multi-call steps in order, stopping after the first step that fails: the
      error is the failing step's, and the calls are those of every step up to and
      including it. */
  function Chain<S, C>(steps: seq<S>, run: S -> Run<C>): (r: Run<C>)
    ensures r.err.None? <==> forall i :: 0 <= i < |steps| ==> run(steps[i]).err.None?
    ensures var n := Passed(steps, run);
            if n == |steps| then r == Run(None, AllCalls(steps, run))
            else r == Run(run(steps[n]).err, AllCalls(steps[..n + 1], run))
    decreases |steps|
  {
    if |steps| == 0 then Run(None, [])
    else
      var first := run(steps[0]);
      if first.err.Some? then
        assert steps[..1][1..] == [];
        Run(first.err, first.calls)
      else
        var rest := Chain(steps[1..], run);
        var n := Passed(steps[1..], run);
        assert n < |steps| - 1 ==> steps[..n + 2][1..] == steps[1..][..n + 1];
        Run(rest.err, first.calls + rest.calls)
  }
}

=== FILE: legacy_cloudflare.dfy ===
/** The Cloudflare provider of the legacy code base (provider/cloudflare/cloudflare.go):
    for each configured domain, look up the zone, list its "A" records and rewrite every
    record the domain's legacy `HasRecord` accepts to the IP, stopping at the first
    error. */
module LegacyCloudflare {
  import opened Base
  import opened Strings
  import opened Upstream
  import opened FailFast
  import opened LegacyDomain
  import opened Seqs

  const Name := "cloudflare"

  datatype Client = Client(
    zoneIdByName: string -> Result<string>,
    dnsRecords: (string, string) -> Result<seq<CfRecord>>,
    update: CfUpdate -> Option<Error>)

  datatype Provider = Provider(domains: seq<Domain>)

  /** `SetDomains`: the new list replaces the old one. */
  function SetDomains(p: Provider, domains: seq<Domain>): (r: Provider)
    ensures r.domains == domains
  {
    Provider(domains)
  }

  /** The planned updates for a zone's listing: every record the domain accepts, with
      the IP as content and nothing else changed, under the looked-up zone and the
      record's ID; records are not compared with the IP first. */
  function Updates(domain: Domain, zone: string, records: seq<CfRecord>, ip: string): (r: seq<CfUpdate>)
    ensures |r| <= |records|
    ensures forall u :: u in r ==>
              exists i :: 0 <= i < |records| && HasRecord(domain, records[i].name) &&
                u == CfUpdate(zone, records[i].id, records[i].(content := ip))
    ensures forall i :: 0 <= i < |records| && HasRecord(domain, records[i].name) ==>
              CfUpdate(zone, records[i].id, records[i].(content := ip)) in r
  {
    FilterMap(records, (x: CfRecord) => HasRecord(domain, x.name), (x: CfRecord) => CfUpdate(zone, x.id, x.(content := ip)))
  }

  /** The record loop of `Update` for one domain: it performs exactly the fail-fast run
      of the planned updates. */
  function UpdateRecords(c: Client, domain: Domain, zone: string, records: seq<CfRecord>, ip: string): (o: Run<CfUpdate>)
    ensures o == Execute(Updates(domain, zone, records, ip), c.update)
    decreases |records|
  {
    if |records| == 0 then Run(None, [])
    else if !HasRecord(domain, records[0].name) then
      FilterMapCons(records, (x: CfRecord) => HasRecord(domain, x.name), (x: CfRecord) => CfUpdate(zone, x.id, x.(content := ip)));
      UpdateRecords(c, domain, zone, records[1..], ip)
    else
      var u := CfUpdate(zone, records[0].id, records[0].(content := ip));
      FilterMapCons(records, (x: CfRecord) => HasRecord(domain, x.name), (x: CfRecord) => CfUpdate(zone, x.id, x.(content := ip)));
      match c.update(u)
      case Some(e) => Run(Some(e), [u])
      case None =>
        var rest := UpdateRecords(c, domain, zone, records[1..], ip);
        Run(rest.err, [u] + rest.calls)
  }

  /** A call on the Cloudflare API. */
  datatype Call = ZoneLookup(name: string) | ListRecords(zoneId: string, typ: string) | UpdateRecord(update: CfUpdate)

  function UpdateCalls(us: seq<CfUpdate>): (cs: seq<Call>)
    ensures |cs| == |us| && forall i :: 0 <= i < |cs| ==> cs[i] == UpdateRecord(us[i])
  {
    seq(|us|, i requires 0 <= i < |us| => UpdateRecord(us[i]))
  }

  /** One iteration of `Update`'s domain loop: zone lookup, listing, record updates. */
  function UpdateDomain(c: Client, domain: Domain, ip: string): (o: Run<Call>)
    ensures |o.calls| >= 1 && o.calls[0] == ZoneLookup(domain.name)
    ensures c.zoneIdByName(domain.name).Err? ==>
              o == Run(Some(c.zoneIdByName(domain.name).error), [ZoneLookup(domain.name)])
    ensures c.zoneIdByName(domain.name).Ok? ==>
              var zone := c.zoneIdByName(domain.name).value;
              var listing := c.dnsRecords(zone, "A");
              && |o.calls| >= 2 && o.calls[1] == ListRecords(zone, "A")
              && (listing.Err? ==> o == Run(Some(listing.error), o.calls[..2]))
              && (listing.Ok? ==>
                    var e := Execute(Updates(domain, zone, listing.value, ip), c.update);
                    o.err == e.err && o.calls[2..] == UpdateCalls(e.calls))
  {
    match c.zoneIdByName(domain.name)
    case Err(e) => Run(Some(e), [ZoneLookup(domain.name)])
    case Ok(zone) =>
      var prefix := [ZoneLookup(domain.name), ListRecords(zone, "A")];
      match c.dnsRecords(zone, "A")
      case Err(e) => Run(Some(e), prefix)
      case Ok(records) =>
        var run := UpdateRecords(c, domain, zone, records, ip);
        Run(run.err, prefix + UpdateCalls(run.calls))
  }

  /** `UpdateDomain` as a step function over domains. */
  function DomainRun(c: Client, ip: string): (run: Domain -> Run<Call>)
    ensures forall d :: run(d) == UpdateDomain(c, d, ip)
  {
    d => UpdateDomain(c, d, ip)
  }

  /** `Update`: the domains in order, returning the first error and attempting nothing
      after it; with no domains, no call at all. */
  function Update(c: Client, p: Provider, ip: string): (r: Run<Call>)
    ensures |p.domains| == 0 ==> r == Run(None, [])
    ensures r.err.None? <==> forall i :: 0 <= i < |p.domains| ==> UpdateDomain(c, p.domains[i], ip).err.None?
    ensures r.err.None? ==> r.calls == AllCalls(p.domains, DomainRun(c, ip))
    ensures r.err.Some? ==>
              exists k ::
                && 0 <= k < |p.domains|
                && r.err == UpdateDomain(c, p.domains[k], ip).err
                && (forall j :: 0 <= j < k ==> UpdateDomain(c, p.domains[j], ip).err.None?)
                && r.calls == AllCalls(p.domains[..k + 1], DomainRun(c, ip))
  {
    Chain(p.domains, DomainRun(c, ip))
  }

  /** No content comparison: a matching record that already holds the IP is still sent,
      unchanged, to the API. */
  lemma CurrentRecordsAreRewritten(domain: Domain, zone: string, records: seq<CfRecord>, ip: string, i: nat)
    requires i < |records| && HasRecord(domain, records[i].name) && records[i].content == ip
    ensures CfUpdate(zone, records[i].id, records[i]) in Updates(domain, zone, records, ip)
  {
    assert records[i].(content := ip) == records[i];
  }

  /** Cloudflare lists fully qualified names, which the legacy `HasRecord` compares
      verbatim against relative labels: for a domain built by the legacy `ParseDomains`,
      no listed record whose name contains "." + domain is ever updated, whatever the
      listing. */
  lemma FullyQualifiedNamesAreMissed(psl: Lookup, hosts: seq<string>, d: Domain, zone: string,
                                     records: seq<CfRecord>, ip: string)
    requires d in LegacyDomain.ParseDomains(psl, hosts).domains
    ensures forall u :: u in Updates(d, zone, records, ip) ==> !Occurs(u.rec.name, "." + d.name)
  {
    forall u | u in Updates(d, zone, records, ip)
      ensures !Occurs(u.rec.name, "." + d.name)
    {
      var i :| 0 <= i < |records| && HasRecord(d, records[i].name) &&
               u == CfUpdate(zone, records[i].id, records[i].(content := ip));
      if Occurs(u.rec.name, "." + d.name) {
        ParsedDomainsMissFullNames(psl, hosts, d, records[i].name);
      }
    }
  }

  /** A host such as "www.example.com" configured on its own gives the domain
      "example.com" with the label "www", and the record Cloudflare lists under that
      same full name is not updated. */
  lemma ConfiguredHostNotUpdated(part: string, domain: string, zone: string, id: string, stale: string, ip: string)
    requires '.' !in part
    ensures var parsed := LegacyDomain.ParseDomains(_ => Ok(domain), [part + "." + domain]);
            var d := Domain(domain, [part]);
            && d in parsed.domains
            && Updates(d, zone, [CfRecord(id, zone, part + "." + domain, "A", stale)], ip) == []
  {
    SingleHostParses(part, domain);
    var listing := [CfRecord(id, zone, part + "." + domain, "A", stale)];
    FullNameMatchesOnlyInCurrent(Domain(domain, [part]), Name, part);
    assert part + "." + domain != part;
    assert !HasRecord(Domain(domain, [part]), listing[0].name);
  }
}

=== FILE: legacy_digitalocean.dfy ===
/** The DigitalOcean provider of the legacy code base
    (provider/digitalocean/digitalocean.go): labels grouped per registrable domain by
    `SetRecords`, and an `Update` that lists each domain's records and edits every "A"
    record once per configured label equal to its name, stopping at the first error. */
module LegacyDigitalOcean {
  import opened Base
  import opened Classify
  import opened Upstream
  import opened FailFast

  const Name := "digitalocean"

  datatype Client = Client(
    list: string -> Result<seq<DoRecord>>,
    edit: DoEdit -> Option<Error>)

  /** The provider's state: labels per registrable domain. */
  datatype Provider = Provider(domains: map<string, seq<string>>)

  datatype SetResult = SetResult(provider: Provider, err: Option<Error>)

  /** `SetRecords`: add each record's label under its registrable domain, in order. The
      map is shared with the caller, so labels added before a failing lookup stay. */
  function SetRecords(psl: Lookup, p: Provider, records: seq<string>): (r: SetResult)
    ensures var n := Resolved(psl, records);
            && r.err == (if n < |records| then Some(psl(records[n]).error) else None)
            && r.provider.domains.Keys == p.domains.Keys + DomainsOf(psl, records, n)
            && forall d :: d in r.provider.domains ==>
                 r.provider.domains[d] == Get(p.domains, d) + Group(Legacy, psl, records[..n], d)
  {
    var g := AddRecords(Legacy, psl, p.domains, records);
    SetResult(Provider(g.labels), g.err)
  }

  /** `n` copies of `x`. */
  function Repeat<T>(x: T, n: nat): (r: seq<T>)
    ensures |r| == n && forall i :: 0 <= i < n ==> r[i] == x
  {
    if n == 0 then [] else [x] + Repeat(x, n - 1)
  }

  /** The planned edits for a listing: each "A" record is edited to the IP once per
      configured label equal to its name, in listing order. */
  function Edits(domain: string, records: seq<DoRecord>, labels: seq<string>, ip: string): (r: seq<DoEdit>)
    ensures forall e :: e in r ==>
              e.domain == domain && e.data == ip &&
              exists i :: 0 <= i < |records| && records[i].typ == "A" && records[i].name in labels && records[i].id == e.id
    ensures forall i :: 0 <= i < |records| && records[i].typ == "A" && records[i].name in labels ==>
              DoEdit(domain, records[i].id, ip) in r
    decreases |records|
  {
    if |records| == 0 then []
    else
      var rest := Edits(domain, records[1..], labels, ip);
      assert forall i :: 1 <= i < |records| ==> records[i] == records[1..][i - 1];
      var head := if records[0].typ == "A" then Repeat(DoEdit(domain, records[0].id, ip), Count(labels, records[0].name)) else [];
      head + rest
  }

  /** Duplicate labels repeat edits: an "A" record is edited as many times as its name
      occurs among the labels. */
  lemma EditsPerRecord(domain: string, rec: DoRecord, labels: seq<string>, ip: string)
    requires rec.typ == "A"
    ensures |Edits(domain, [rec], labels, ip)| == multiset(labels)[rec.name]
  {
    assert [rec][1..] == [];
  }

  /** The edit loop over the labels for one "A" record. */
  function EditLabels(c: Client, domain: string, rec: DoRecord, labels: seq<string>, ip: string): (o: Run<DoEdit>)
    ensures o == Execute(Repeat(DoEdit(domain, rec.id, ip), Count(labels, rec.name)), c.edit)
    decreases |labels|
  {
    if |labels| == 0 then Run(None, [])
    else
      assert labels == [labels[0]] + labels[1..];
      if labels[0] != rec.name then EditLabels(c, domain, rec, labels[1..], ip)
      else
        var e := DoEdit(domain, rec.id, ip);
        match c.edit(e)
        case Some(err) => Run(Some(err), [e])
        case None =>
          var rest := EditLabels(c, domain, rec, labels[1..], ip);
          Run(rest.err, [e] + rest.calls)
  }

  lemma EditsUnfold(domain: string, records: seq<DoRecord>, labels: seq<string>, ip: string)
    requires |records| > 0
    ensures records[0].typ != "A" ==> Edits(domain, records, labels, ip) == Edits(domain, records[1..], labels, ip)
    ensures records[0].typ == "A" ==>
              Edits(domain, records, labels, ip)
              == Repeat(DoEdit(domain, records[0].id, ip), Count(labels, records[0].name)) + Edits(domain, records[1..], labels, ip)
  {
    assert [] + Edits(domain, records[1..], labels, ip) == Edits(domain, records[1..], labels, ip);
  }

  /** The edit loop over the listed records of `updateDomain`: it performs exactly the
      fail-fast run of the planned edits. */
  function EditRecords(c: Client, domain: string, records: seq<DoRecord>, labels: seq<string>, ip: string): (o: Run<DoEdit>)
    ensures o == Execute(Edits(domain, records, labels, ip), c.edit)
    decreases |records|
  {
    if |records| == 0 then Run(None, [])
    else if records[0].typ != "A" then
      EditsUnfold(domain, records, labels, ip);
      EditRecords(c, domain, records[1..], labels, ip)
    else
      EditsUnfold(domain, records, labels, ip);
      var head := Repeat(DoEdit(domain, records[0].id, ip), Count(labels, records[0].name));
      ExecuteAppend(head, Edits(domain, records[1..], labels, ip), c.edit);
      var first := EditLabels(c, domain, records[0], labels, ip);
      if first.err.Some? then first
      else
        var rest := EditRecords(c, domain, records[1..], labels, ip);
        Run(rest.err, first.calls + rest.calls)
  }

  /** A call on the DigitalOcean API. */
  datatype Call = ListRecords(domain: string) | EditRecord(edit: DoEdit)

  function EditCalls(edits: seq<DoEdit>): (cs: seq<Call>)
    ensures |cs| == |edits| && forall i :: 0 <= i < |cs| ==> cs[i] == EditRecord(edits[i])
  {
    seq(|edits|, i requires 0 <= i < |edits| => EditRecord(edits[i]))
  }

  /** `updateDomain`: list the domain's records, then run the edits for its labels. */
  function UpdateDomain(c: Client, p: Provider, domain: string, ip: string): (o: Run<Call>)
    ensures |o.calls| >= 1 && o.calls[0] == ListRecords(domain)
    ensures c.list(domain).Err? ==> o == Run(Some(c.list(domain).error), [ListRecords(domain)])
    ensures c.list(domain).Ok? ==>
              var e := Execute(Edits(domain, c.list(domain).value, Get(p.domains, domain), ip), c.edit);
              o.err == e.err && o.calls[1..] == EditCalls(e.calls)
  {
    match c.list(domain)
    case Err(e) => Run(Some(e), [ListRecords(domain)])
    case Ok(records) =>
      var run := EditRecords(c, domain, records, Get(p.domains, domain), ip);
      Run(run.err, [ListRecords(domain)] + EditCalls(run.calls))
  }

  /** `updateDomain` as a step function over domain names. */
  function DomainRun(c: Client, p: Provider, ip: string): (run: string -> Run<Call>)
    ensures forall d :: run(d) == UpdateDomain(c, p, d, ip)
  {
    d => UpdateDomain(c, p, d, ip)
  }

  /** The iteration order of the provider's map: every domain exactly once. */
  predicate EnumeratesKeys(order: seq<string>, m: map<string, seq<string>>)
  {
    && (forall d :: d in order ==> d in m)
    && (forall d :: d in m ==> d in order)
    && (forall i, j :: 0 <= i < j < |order| ==> order[i] != order[j])
  }

  /** `Update`: update the domains in map-iteration order, returning the first error.
      Whether it fails does not depend on that order; if it fails, it stopped right after
      the first failing domain. */
  function Update(c: Client, p: Provider, order: seq<string>, ip: string): (r: Run<Call>)
    requires EnumeratesKeys(order, p.domains)
    ensures r.err.None? <==> forall d :: d in p.domains ==> UpdateDomain(c, p, d, ip).err.None?
    ensures r.err.None? ==> r.calls == AllCalls(order, DomainRun(c, p, ip))
    ensures r.err.Some? ==>
              exists k ::
                && 0 <= k < |order|
                && r.err == UpdateDomain(c, p, order[k], ip).err
                && (forall j :: 0 <= j < k ==> UpdateDomain(c, p, order[j], ip).err.None?)
                && r.calls == AllCalls(order[..k + 1], DomainRun(c, p, ip))
    ensures |p.domains| == 0 ==> r == Run(None, [])
  {
    var run := DomainRun(c, p, ip);
    assert |order| > 0 ==> order[0] in p.domains;
    Chain(order, run)
  }

  /** When `Update` succeeds, every domain was listed and received every planned edit. */
  lemma UpdateReachesEveryDomain(c: Client, p: Provider, order: seq<string>, ip: string, d: string, k: nat)
    requires EnumeratesKeys(order, p.domains)
    requires Update(c, p, order, ip).err.None?
    requires d in p.domains && k < |UpdateDomain(c, p, d, ip).calls|
    ensures UpdateDomain(c, p, d, ip).calls[k] in Update(c, p, order, ip).calls
  {
    var i :| 0 <= i < |order| && order[i] == d;
    AllCallsContains(order, DomainRun(c, p, ip), i, k);
  }
}

=== FILE: legacy_domain.dfy ===
/** Domains of the legacy code base (provider/domain.go): no provider field, an empty
    label for records that do not contain "." + domain, and a `HasRecord` that only
    rewrites the bare domain name to the apex label. */
module LegacyDomain {
  import opened Base
  import opened Strings
  import opened Classify
  import Ddns

  datatype Domain = Domain(name: string, records: seq<string>)

  /** Legacy `Domain.HasRecord`: the domain name becomes "@", anything else is compared
      verbatim against the configured labels. */
  predicate HasRecord(d: Domain, input: string)
  {
    (if input == d.name then Apex else input) in d.records
  }

  lemma HasRecordApex(d: Domain)
    ensures HasRecord(d, d.name) <==> Apex in d.records
  {
  }

  /** Any name other than the domain name is compared verbatim: no suffix is cut. */
  lemma HasRecordVerbatim(d: Domain, input: string)
    requires input != d.name
    ensures HasRecord(d, input) <==> input in d.records
  {
  }

  /** On the domain name and on relative names the two generations agree; they differ
      only on names that contain "." + domain. */
  lemma HasRecordAgreesOnRelativeNames(d: Domain, provider: string, input: string)
    requires input == d.name || !Occurs(input, "." + d.name)
    ensures HasRecord(d, input) <==> Ddns.HasRecord(Ddns.Domain(d.name, d.records, provider), input)
  {
  }

  /** A fully qualified single-label name `part` + "." + domain: the newer `HasRecord`
      finds it exactly when `part` is configured, the legacy one only when that very
      string is configured as a label. */
  lemma FullNameMatchesOnlyInCurrent(d: Domain, provider: string, part: string)
    requires '.' !in part
    ensures Ddns.HasRecord(Ddns.Domain(d.name, d.records, provider), part + "." + d.name) <==> part in d.records
    ensures HasRecord(d, part + "." + d.name) <==> part + "." + d.name in d.records
  {
    SingleLabelRoundTrip(part, d.name);
    assert |part + "." + d.name| > |d.name|;
  }

  /** The example: "www.example.com" with "www" configured. */
  lemma FullNameExample()
    ensures Ddns.HasRecord(Ddns.Domain("example.com", ["www"], "cloudflare"), "www.example.com")
    ensures !HasRecord(Domain("example.com", ["www"]), "www.example.com")
  {
    assert "www.example.com" == "www" + "." + "example.com";
    assert '.' !in "www";
    FullNameMatchesOnlyInCurrent(Domain("example.com", ["www"]), "cloudflare", "www");
    assert "www.example.com" != "www";
  }

  datatype Parsed = Parsed(domains: set<Domain>, err: Option<Error>)

  /** Legacy `ParseDomains`: as the newer one, with legacy labels and no provider. */
  function ParseDomains(psl: Lookup, records: seq<string>): (r: Parsed)
    ensures var n := Resolved(psl, records);
            n < |records| ==> r == Parsed({}, Some(psl(records[n]).error))
    ensures r.err.None? <==> forall i :: 0 <= i < |records| ==> psl(records[i]).Ok?
    ensures forall d :: d in r.domains ==>
              d.records == Group(Legacy, psl, records, d.name) && |d.records| > 0
    ensures r.err.None? ==>
              forall name :: name in DomainsOf(psl, records, |records|) <==>
                             exists d :: d in r.domains && d.name == name
    ensures forall a, b :: a in r.domains && b in r.domains && a.name == b.name ==> a == b
  {
    var g := AddRecords(Legacy, psl, map[], records);
    if g.err.Some? then Parsed({}, g.err)
    else
      assert records[..|records|] == records;
      ResolvedGroupsNonEmpty(Legacy, psl, records);
      var ds := set name | name in g.labels :: Domain(name, g.labels[name]);
      assert forall name :: name in g.labels ==> Domain(name, g.labels[name]) in ds;
      Parsed(ds, None)
  }

  /** A domain built by the legacy `ParseDomains` never matches a name containing
      "." + domain: its labels are free of that separator, and such a name is not the
      domain name either. */
  lemma ParsedDomainsMissFullNames(psl: Lookup, hosts: seq<string>, d: Domain, name: string)
    requires d in ParseDomains(psl, hosts).domains
    requires Occurs(name, "." + d.name)
    ensures !HasRecord(d, name)
  {
    var p :| 0 <= p <= |name| && OccursAt(name, "." + d.name, p);
    assert |name| > |d.name|;
    GroupFreeOfSeparator(Legacy, psl, hosts, d.name);
  }

  /** A single configured host `part` + "." + domain, with `part` free of dots, becomes
      one domain holding the label `part`. */
  lemma SingleHostParses(part: string, domain: string)
    requires '.' !in part
    ensures Domain(domain, [part]) in ParseDomains(_ => Ok(domain), [part + "." + domain]).domains
  {
    var psl: Lookup := _ => Ok(domain);
    var records := [part + "." + domain];
    SingleLabelRoundTrip(part, domain);
    assert Resolved(psl, records) == 1;
    assert records[..1] == records;
    assert Group(Legacy, psl, records, domain) == [part];
    assert domain in DomainsOf(psl, records, |records|);
  }
}

=== FILE: legacy_noop.dfy ===
/** The no-op provider of the legacy code base (provider/noop/noop.go). */
module LegacyNoop {
  import opened Base

  const Name := "noop"

  datatype Noop = Noop(records: seq<string>)

  /** `SetRecords`: the new list replaces the old one. */
  function SetRecords(n: Noop, records: seq<string>): (r: Noop)
    ensures r.records == records
  {
    Noop(records)
  }

  /** `Update`: succeeds for every IP and leaves the provider as it was. */
  function Update(n: Noop, ip: string): (r: (Noop, Option<Error>))
    ensures r.0 == n && r.1.None?
  {
    (n, None)
  }
}

=== FILE: legacy_updater.dfy ===
/** The updater of the legacy code base (updater.go): an append-only list of providers,
    each asked to update itself to the new IP; a provider's error is only logged. */
module LegacyUpdater {
  import opened Base
  import WaitGroup

  /** The legacy provider capability as the updater uses it: a name and `Update(ip)`. */
  datatype Provider = Provider(name: string, update: string -> Option<Error>)

  datatype Updater = Updater(providers: seq<Provider>)

  /** `NewUpdater`: no providers. */
  function New(): (u: Updater)
    ensures |u.providers| == 0
  {
    Updater([])
  }

  /** `RegisterProvider`: append, keeping earlier registrations, duplicates included. */
  function RegisterProvider(u: Updater, p: Provider): (r: Updater)
    ensures |r.providers| == |u.providers| + 1
    ensures forall i :: 0 <= i < |u.providers| ==> r.providers[i] == u.providers[i]
    ensures r.providers[|u.providers|] == p
  {
    Updater(u.providers + [p])
  }

  /** Registering a provider under a name already present adds a second entry. */
  lemma RegisterKeepsDuplicates(u: Updater, p: Provider)
    ensures var r := RegisterProvider(RegisterProvider(u, p), p);
            |r.providers| == |u.providers| + 2 &&
            r.providers[|u.providers|].name == r.providers[|u.providers| + 1].name == p.name
  {
  }

  /** One `updateProvider` goroutine: which provider, with which IP and correlation ID,
      and the error its `Update` returned (logged, never propagated). */
  datatype Dispatch = Dispatch(provider: string, correlationID: string, ip: string, err: Option<Error>)

  /** `Update`: one dispatch per registered provider, in registration order, each
      bracketed by the wait group; nothing at all when no provider is registered. */
  method Update(u: Updater, correlationID: string, ip: string)
    returns (dispatches: seq<Dispatch>, wg: seq<WaitGroup.Event>)
    ensures |dispatches| == |u.providers|
    ensures forall i :: 0 <= i < |dispatches| ==>
              dispatches[i] == Dispatch(u.providers[i].name, correlationID, ip, u.providers[i].update(ip))
    ensures WaitGroup.Balanced(wg) && WaitGroup.Adds(wg) == |u.providers|
    ensures |u.providers| == 0 ==> wg == []
  {
    dispatches := [];
    wg := [];
    if |u.providers| == 0 {
      return;
    }
    for i := 0 to |u.providers|
      invariant |dispatches| == i
      invariant forall j :: 0 <= j < i ==>
                  dispatches[j] == Dispatch(u.providers[j].name, correlationID, ip, u.providers[j].update(ip))
      invariant WaitGroup.Balanced(wg) && WaitGroup.Adds(wg) == i
    {
      WaitGroup.AppendTask(wg);
      wg := wg + WaitGroup.Task;
      var p := u.providers[i];
      dispatches := dispatches + [Dispatch(p.name, correlationID, ip, p.update(ip))];
    }
  }
}

=== FILE: noop.dfy ===
/** The no-op provider of the newer code base (pkg/ddns/provider/noop/noop.go): one
    empty record per configured label, and updates that always succeed. */
module Noop {
  import opened Base
  import opened FailFast
  import opened Ddns
  import Updater

  const Name := "noop"

  /** A record per label, carrying the label, the domain's name and the given content
      (the loop of `Records` builds them with empty content). */
  function RecordsOf(domain: Domain, labels: seq<string>, content: string): (out: seq<ProviderRecord>)
    ensures |out| == |labels|
    ensures forall i :: 0 <= i < |out| ==>
              out[i] == ProviderRecord("", domain.name, labels[i], "", content, map[])
    decreases |labels|
  {
    if |labels| == 0 then []
    else [ProviderRecord("", domain.name, labels[0], "", content, map[])] + RecordsOf(domain, labels[1..], content)
  }

  /** `Records`: never fails. */
  function Records(domain: Domain): (f: Fetched)
    ensures f.err.None?
    ensures f.records == RecordsOf(domain, domain.records, "")
  {
    Fetched(RecordsOf(domain, domain.records, ""), None)
  }

  /** `UpdateRecord`: accepts every record. */
  function UpdateRecord(record: ProviderRecord): (r: Option<Error>)
    ensures r.None?
  {
    None
  }

  function AsProvider(): (p: Provider)
    ensures p.name == Name
    ensures forall d :: p.records(d) == Records(d)
    ensures forall x :: p.updateRecord(x).None?
  {
    Provider(Name, Records, UpdateRecord)
  }

  /** With nothing to fail on, every pending update is attempted. */
  lemma {:induction false} ExecuteNeverFailing(plan: seq<ProviderRecord>)
    ensures Execute(plan, UpdateRecord) == Run(None, plan)
    decreases |plan|
  {
    if |plan| > 0 {
      ExecuteNeverFailing(plan[1..]);
      ExecuteSucceedingHead(plan, UpdateRecord);
      assert [plan[0]] + plan[1..] == plan;
    }
  }

  /** Noop records have empty content, so for a non-empty IP every record is pending:
      the same records, carrying the IP. */
  lemma {:induction false} PendingOfRecords(domain: Domain, labels: seq<string>, ip: string)
    requires ip != ""
    ensures Updater.Pending(RecordsOf(domain, labels, ""), ip) == RecordsOf(domain, labels, ip)
    decreases |labels|
  {
    if |labels| > 0 {
      var rs := RecordsOf(domain, labels, "");
      assert rs[1..] == RecordsOf(domain, labels[1..], "");
      PendingOfRecords(domain, labels[1..], ip);
    }
  }

  /** The updater with the no-op provider registered updates every configured label of a
      noop domain once, in order, when the IP is not empty, and nothing otherwise. */
  lemma NoopDomainUpdate(u: Updater.Updater, domain: Domain, ip: string)
    requires domain.provider == Name
    ensures var o := Updater.UpdateDomain(Updater.RegisterProvider(u, AsProvider()), domain, ip);
            && o.err.None?
            && o.calls[0] == Updater.RecordsCall(Name, domain)
            && (ip != "" ==> o.calls[1..] == Updater.UpdateCalls(Name, RecordsOf(domain, domain.records, ip)))
            && |o.calls| == 1 + (if ip == "" then 0 else |domain.records|)
  {
    var v := Updater.RegisterProvider(u, AsProvider());
    if ip == "" {
      Updater.UpToDateDomainMakesNoUpdates(v, domain, ip);
    } else {
      PendingOfRecords(domain, domain.records, ip);
      ExecuteNeverFailing(RecordsOf(domain, domain.records, ip));
    }
  }
}

=== FILE: runner.dfy ===
/** The runner (pkg/ddns/runner/runner.go and its legacy twin runner.go): a cron job
    that asks the checker whether the external IP changed and, if so, asks the updater
    to update and remembers the new IP. The cron library, the correlation-ID generator
    and the updater are outside the model; what the runner asks of them is recorded as
    events. */
module Runner {
  import opened Base
  import Checker

  /** A scheduled cron job and its schedule. */
  datatype Cron = Cron(spec: string)

  datatype Runner = Runner(knownIP: string, cron: Option<Cron>)

  datatype Event =
    | UpdateRequested(correlationID: string, ip: string)   // updater.Update
    | CronStopped                                          // cron.Stop on the current job
    | CronStarted(spec: string)                            // a new job scheduled and started
    | UpdaterStopped                                       // updater.Stop, waiting for its tasks

  /** The runner after an operation and what the operation asked of others. */
  datatype Step = Step(runner: Runner, events: seq<Event>)

  /** `New`: no known IP, no job. */
  function New(): (r: Runner)
    ensures r.knownIP == "" && r.cron.None?
  {
    Runner("", None)
  }

  /** `Start`: stop the running job, if any, and schedule a new one every `interval`. */
  function Start(r: Runner, interval: string): (s: Step)
    ensures s.runner.knownIP == r.knownIP
    ensures s.runner.cron == Some(Cron("@every " + interval))
    ensures |s.events| >= 1 && s.events[|s.events| - 1] == CronStarted("@every " + interval)
    ensures s.events[..|s.events| - 1] == (if r.cron.Some? then [CronStopped] else [])
  {
    var stop := if r.cron.Some? then [CronStopped] else [];
    var spec := "@every " + interval;
    Step(r.(cron := Some(Cron(spec))), stop + [CronStarted(spec)])
  }

  /** Starting again replaces the job: exactly one job stopped, one started. */
  lemma RestartReplacesJob(r: Runner, first: string, second: string)
    ensures var s1 := Start(r, first);
            var s2 := Start(s1.runner, second);
            && s2.events == [CronStopped, CronStarted("@every " + second)]
            && s2.runner.cron == Some(Cron("@every " + second))
            && s2.runner.knownIP == r.knownIP
  {
  }

  /** `Stop`: stop the job, if any, then stop the updater. The runner is not changed. */
  function Stop(r: Runner): (s: Step)
    ensures s.runner == r
    ensures |s.events| >= 1 && s.events[|s.events| - 1] == UpdaterStopped
    ensures CronStopped in s.events <==> r.cron.Some?
    ensures |s.events| == (if r.cron.Some? then 2 else 1)
    ensures r.cron.Some? ==> s.events[0] == CronStopped
  {
    Step(r, (if r.cron.Some? then [CronStopped] else []) + [UpdaterStopped])
  }

  /** `run`: one scheduled check. A failed check or an unchanged IP asks nothing of the
      updater and keeps the known IP; a changed IP is handed to the updater and becomes
      the known one. */
  function Run(r: Runner, correlationID: string, c: Checker.Checker, fetch: string -> Result<string>): (s: Step)
    ensures s.runner.cron == r.cron
    ensures var check := Checker.IPHasChanged(c, r.knownIP, fetch);
            if check.err.None? && check.changed then
              s.events == [UpdateRequested(correlationID, check.ip)] && s.runner.knownIP == check.ip
            else
              s.events == [] && s.runner.knownIP == r.knownIP
  {
    var check := Checker.IPHasChanged(c, r.knownIP, fetch);
    if check.err.Some? then Step(r, [])
    else if !check.changed then Step(r, [])
    else Step(r.(knownIP := check.ip), [UpdateRequested(correlationID, check.ip)])
  }

  /** After a run whose lookup succeeded, the known IP is the IP the endpoint reported;
      after a failed lookup it is unchanged. */
  lemma RunConverges(r: Runner, correlationID: string, c: Checker.Checker, fetch: string -> Result<string>)
    ensures fetch(c.endpoint).Ok? ==> Run(r, correlationID, c, fetch).runner.knownIP == fetch(c.endpoint).value
    ensures fetch(c.endpoint).Err? ==> Run(r, correlationID, c, fetch) == Step(r, [])
  {
  }

  /** The updater is asked exactly when the reported IP differs from the known one. */
  lemma UpdateOnlyOnChange(r: Runner, correlationID: string, c: Checker.Checker, fetch: string -> Result<string>)
    ensures Run(r, correlationID, c, fetch).events != [] <==>
              fetch(c.endpoint).Ok? && fetch(c.endpoint).value != r.knownIP
  {
  }

  /** Two runs that see the same external IP ask for at most one update, and the second
      asks for none. */
  lemma SecondRunQuiet(r: Runner, id1: string, id2: string, c: Checker.Checker, fetch: string -> Result<string>)
    requires fetch(c.endpoint).Ok?
    ensures var s1 := Run(r, id1, c, fetch);
            var s2 := Run(s1.runner, id2, c, fetch);
            && s2.events == []
            && s2.runner == s1.runner
            && |s1.events + s2.events| <= 1
  {
  }
}

=== FILE: seqs.dfy ===
/** The filter-and-build loop that recurs in the adapters and the updater: walk a
    sequence in order, skip the elements a test rejects, and build one value from each
    element it accepts. */
module Seqs {

  function FilterMap<A, B>(xs: seq<A>, keep: A -> bool, build: A -> B): (out: seq<B>)
    ensures |out| <= |xs|
    ensures forall y :: y in out ==> exists i :: 0 <= i < |xs| && keep(xs[i]) && y == build(xs[i])
    ensures forall i :: 0 <= i < |xs| && keep(xs[i]) ==> build(xs[i]) in out
    ensures out == [] <==> forall i :: 0 <= i < |xs| ==> !keep(xs[i])
    decreases |xs|
  {
    if |xs| == 0 then []
    else
      var rest := FilterMap(xs[1..], keep, build);
      assert forall i :: 1 <= i < |xs| ==> xs[i] == xs[1..][i - 1];
      if keep(xs[0]) then [build(xs[0])] + rest else rest
  }

  /** One step of the loop. */
  lemma FilterMapCons<A, B>(xs: seq<A>, keep: A -> bool, build: A -> B)
    requires |xs| > 0
    ensures keep(xs[0]) ==> FilterMap(xs, keep, build) == [build(xs[0])] + FilterMap(xs[1..], keep, build)
    ensures !keep(xs[0]) ==> FilterMap(xs, keep, build) == FilterMap(xs[1..], keep, build)
  {
  }

  /** The loop keeps the order of its input: filtering a concatenation filters each
      part. */
  lemma {:induction false} FilterMapAppend<A, B>(a: seq<A>, b: seq<A>, keep: A -> bool, build: A -> B)
    ensures FilterMap(a + b, keep, build) == FilterMap(a, keep, build) + FilterMap(b, keep, build)
    decreases |a|
  {
    if |a| > 0 {
      assert (a + b)[0] == a[0];
      assert (a + b)[1..] == a[1..] + b;
      FilterMapAppend(a[1..], b, keep, build);
      FilterMapCons(a + b, keep, build);
      FilterMapCons(a, keep, build);
    } else {
      assert a + b == b;
    }
  }

  lemma ConcatAssociates<T>(a: seq<T>, b: seq<T>, c: seq<T>)
    ensures (a + b) + c == a + (b + c)
  {
  }
}

=== FILE: strconv.dfy ===
/** Decimal conversion between Go's 64-bit `int` and strings: `strconv.Itoa` and
    `strconv.Atoi`. */
module Strconv {
  import opened Base

  const MinInt64: int := -0x8000_0000_0000_0000
  const MaxInt64: int := 0x7FFF_FFFF_FFFF_FFFF

  /** Go's `int` on a 64-bit platform. */
  type Int64 = x: int | MinInt64 <= x <= MaxInt64

  predicate IsDigit(c: char)
  {
    '0' <= c <= '9'
  }

  predicate AllDigits(s: string)
  {
    forall i :: 0 <= i < |s| ==> IsDigit(s[i])
  }

  function DigitChar(d: nat): char
    requires d < 10
  {
    "0123456789"[d]
  }

  /** Decimal digits of `n`, most significant first, without leading zeros. */
  function Digits(n: nat): (s: string)
    ensures |s| >= 1 && AllDigits(s)
    ensures s[0] == '0' ==> n == 0 && |s| == 1
    decreases n
  {
    if n < 10 then [DigitChar(n)]
    else
      var s := Digits(n / 10) + [DigitChar(n % 10)];
      assert s[0] == Digits(n / 10)[0];
      s
  }

  /** Value of a string of decimal digits. */
  function DigitsValue(s: string): nat
    requires AllDigits(s)
    decreases |s|
  {
    if |s| == 0 then 0
    else DigitsValue(s[..|s| - 1]) * 10 + (s[|s| - 1] as int - '0' as int)
  }

  /** `strconv.Itoa`: minus sign for negatives, then the digits of the magnitude. */
  function Itoa(n: int): (s: string)
    ensures |s| >= 1 && (s[0] == '-' <==> n < 0)
    ensures var mag := if n < 0 then s[1..] else s;
            && |mag| >= 1 && AllDigits(mag)
            && (mag[0] != '0' || |mag| == 1)
            && DigitsValue(mag) == (if n < 0 then -n else n)
  {
    if n < 0 then
      DigitsValueOfDigits(-n);
      "-" + Digits(-n)
    else
      DigitsValueOfDigits(n);
      Digits(n)
  }

  /** `strconv.Atoi` for a 64-bit `int`: an optional sign followed by at least one
      decimal digit, whose value fits the type. Syntax and range errors are both
      reported as `NumError`. */
  function Atoi(s: string): (r: Result<int>)
    ensures r.Ok? ==> MinInt64 <= r.value <= MaxInt64
    ensures |s| == 0 ==> r.Err?
    ensures r.Ok? ==> forall i :: 0 < i < |s| ==> IsDigit(s[i])
    ensures r.Ok? ==> IsDigit(s[0]) || ((s[0] == '-' || s[0] == '+') && |s| >= 2)
  {
    if |s| == 0 then Err(NumError(s))
    else
      var digits := if s[0] == '-' || s[0] == '+' then s[1..] else s;
      if |digits| == 0 || !AllDigits(digits) then Err(NumError(s))
      else
        var v: int := if s[0] == '-' then 0 - (DigitsValue(digits) as int) else DigitsValue(digits);
        if MinInt64 <= v <= MaxInt64 then Ok(v) else Err(NumError(s))
  }

  lemma {:induction false} DigitsValueOfDigits(n: nat)
    ensures DigitsValue(Digits(n)) == n
    decreases n
  {
    if n >= 10 {
      var s := Digits(n);
      assert s[..|s| - 1] == Digits(n / 10);
      DigitsValueOfDigits(n / 10);
    }
  }

  /** A digit string whose first digit is not zero has a positive value. */
  lemma {:induction false} LeadingDigitPositive(s: string)
    requires |s| >= 1 && AllDigits(s) && s[0] != '0'
    ensures DigitsValue(s) >= 1
    decreases |s|
  {
    if |s| > 1 {
      var t := s[..|s| - 1];
      assert t[0] == s[0];
      LeadingDigitPositive(t);
    }
  }

  /** The decimal form is unique: a digit string without leading zeros is the `Digits`
      of its own value. */
  lemma {:induction false} DigitsCanonical(s: string)
    requires |s| >= 1 && AllDigits(s) && (s[0] != '0' || |s| == 1)
    ensures Digits(DigitsValue(s)) == s
    decreases |s|
  {
    var v := DigitsValue(s);
    if |s| == 1 {
      assert s[..0] == [];
      assert "0123456789"[s[0] as int - '0' as int] == s[0];
    } else {
      var t := s[..|s| - 1];
      var d := s[|s| - 1] as int - '0' as int;
      assert t[0] == s[0];
      LeadingDigitPositive(t);
      DigitsCanonical(t);
      assert v == DigitsValue(t) * 10 + d && 0 <= d < 10;
      assert v / 10 == DigitsValue(t) && v % 10 == d;
      assert "0123456789"[d] == s[|s| - 1];
      assert s == t + [s[|s| - 1]];
    }
  }

  /** `Itoa`'s contract pins its result down: any string with the sign of `n`, then
      digits without leading zeros whose value is the magnitude of `n`, is `Itoa(n)`. */
  lemma ItoaUnique(n: int, s: string)
    requires |s| >= 1 && (s[0] == '-' <==> n < 0)
    requires var mag := if n < 0 then s[1..] else s;
             && |mag| >= 1 && AllDigits(mag)
             && (mag[0] != '0' || |mag| == 1)
             && DigitsValue(mag) == (if n < 0 then -n else n)
    ensures s == Itoa(n)
  {
    if n < 0 {
      DigitsCanonical(s[1..]);
      assert s == [s[0]] + s[1..];
    } else {
      DigitsCanonical(s);
    }
  }

  /** The ID round trip: `Atoi` recovers every 64-bit integer that `Itoa` printed. */
  lemma AtoiItoa(n: Int64)
    ensures Atoi(Itoa(n)) == Ok(n)
  {
    if n < 0 {
      AtoiSignedDigits("-", Itoa(n)[1..]);
      assert "-" + Itoa(n)[1..] == Itoa(n);
    } else {
      AtoiSignedDigits("", Itoa(n));
      assert "" + Itoa(n) == Itoa(n);
    }
  }

  /** What `Atoi` accepts, and its value: an optional sign followed by at least one
      digit is accepted exactly when its signed value fits 64 bits, and then yields that
      value. With the contract of `Atoi` (nothing else is accepted) this is all of it. */
  lemma AtoiSignedDigits(sign: string, digits: string)
    requires sign == "" || sign == "+" || sign == "-"
    requires |digits| >= 1 && AllDigits(digits)
    ensures var v: int := if sign == "-" then 0 - DigitsValue(digits) else DigitsValue(digits);
            Atoi(sign + digits) == if MinInt64 <= v <= MaxInt64 then Ok(v) else Err(NumError(sign + digits))
  {
    if sign == "" {
      assert sign + digits == digits;
      AtoiUnsigned(digits);
    } else if sign == "+" {
      AtoiPlus(digits);
    } else {
      AtoiMinus(digits);
    }
  }

  lemma AtoiUnsigned(digits: string)
    requires |digits| >= 1 && AllDigits(digits)
    ensures var v: int := DigitsValue(digits);
            Atoi(digits) == if v <= MaxInt64 then Ok(v) else Err(NumError(digits))
  {
    assert IsDigit(digits[0]);
  }

  lemma AtoiPlus(digits: string)
    requires |digits| >= 1 && AllDigits(digits)
    ensures var v: int := DigitsValue(digits);
            Atoi("+" + digits) == if v <= MaxInt64 then Ok(v) else Err(NumError("+" + digits))
  {
    var s := "+" + digits;
    assert s[0] == '+';
    assert s[1..] == digits;
  }

  lemma AtoiMinus(digits: string)
    requires |digits| >= 1 && AllDigits(digits)
    ensures var v: int := 0 - DigitsValue(digits);
            Atoi("-" + digits) == if MinInt64 <= v then Ok(v) else Err(NumError("-" + digits))
  {
    var s := "-" + digits;
    assert s[0] == '-';
    assert s[1..] == digits;
  }

  /** A leading zero does not change the value of a digit string. */
  lemma {:induction false} DigitsValueLeadingZero(s: string)
    requires AllDigits(s)
    ensures AllDigits("0" + s) && DigitsValue("0" + s) == DigitsValue(s)
    decreases |s|
  {
    var t := "0" + s;
    if |s| > 0 {
      assert t[..|t| - 1] == "0" + s[..|s| - 1];
      assert t[|t| - 1] == s[|s| - 1];
      DigitsValueLeadingZero(s[..|s| - 1]);
    }
  }

  /** Leading zeros are accepted and ignored: "007" is the ID 7. */
  lemma AtoiLeadingZero(sign: string, digits: string)
    requires sign == "" || sign == "+" || sign == "-"
    requires |digits| >= 1 && AllDigits(digits)
    ensures Atoi(sign + "0" + digits).Ok? == Atoi(sign + digits).Ok?
    ensures Atoi(sign + digits).Ok? ==> Atoi(sign + "0" + digits).value == Atoi(sign + digits).value
  {
    var z := "0" + digits;
    DigitsValueLeadingZero(digits);
    assert sign + "0" + digits == sign + z;
    var v: int := if sign == "-" then 0 - DigitsValue(digits) else DigitsValue(digits);
    AtoiSignedDigits(sign, digits);
    AtoiSignedDigits(sign, z);
    assert Atoi(sign + digits).Ok? <==> MinInt64 <= v <= MaxInt64;
    assert Atoi(sign + z).Ok? <==> MinInt64 <= v <= MaxInt64;
  }
}

=== FILE: strings.dfy ===
/** Substring search as Go's `strings.Index` performs it: the position of the first
    occurrence of `sub` in `s`, or -1 when there is none. */
module Strings {

  /** `sub` occurs in `s` starting at position `p`. */
  predicate OccursAt(s: string, sub: string, p: int)
  {
    0 <= p && p + |sub| <= |s| && s[p..p + |sub|] == sub
  }

  /** `p` is the leftmost position at which `sub` occurs in `s`. */
  predicate IsFirstOccurrence(s: string, sub: string, p: int)
  {
    OccursAt(s, sub, p) && forall q :: 0 <= q < p ==> !OccursAt(s, sub, q)
  }

  predicate Occurs(s: string, sub: string)
  {
    exists p :: 0 <= p <= |s| && OccursAt(s, sub, p)
  }

  predicate IsPrefix(a: string, b: string)
  {
    |a| <= |b| && b[..|a|] == a
  }

  /** Scan for `sub` from position `i` onwards. */
  function IndexFrom(s: string, sub: string, i: nat): (r: int)
    requires i <= |s|
    ensures r == -1 || (i <= r && OccursAt(s, sub, r))
    ensures forall q :: i <= q && (r == -1 || q < r) ==> !OccursAt(s, sub, q)
    decreases |s| - i
  {
    if i + |sub| > |s| then -1
    else if s[i..i + |sub|] == sub then i
    else IndexFrom(s, sub, i + 1)
  }

  /** Go's `strings.Index(s, sub)`. */
  function Index(s: string, sub: string): (r: int)
    ensures r == -1 <==> !Occurs(s, sub)
    ensures r != -1 ==> IsFirstOccurrence(s, sub, r)
  {
    IndexFrom(s, sub, 0)
  }
}

=== FILE: updater.dfy ===
/** The updater of the newer code base (pkg/ddns/updater): providers registered by
    name, domains registered in order, and per domain one fetch of the provider's
    records followed by fail-fast updates of every record whose content is not the
    new IP. */
module Updater {
  import opened Base
  import opened FailFast
  import opened Ddns
  import WaitGroup
  import opened Seqs

  datatype Updater = Updater(domains: seq<Domain>, providers: map<string, Provider>)

  /** A fresh updater: no domains, no providers. */
  function New(): (u: Updater)
    ensures |u.domains| == 0 && u.providers.Keys == {}
  {
    Updater([], map[])
  }

  /** Register a provider under its own name; a provider registered earlier under the
      same name is replaced, every other registration is kept. */
  function RegisterProvider(u: Updater, p: Provider): (r: Updater)
    ensures r.domains == u.domains
    ensures p.name in r.providers && r.providers[p.name] == p
    ensures r.providers.Keys == u.providers.Keys + {p.name}
    ensures forall n :: n in u.providers && n != p.name ==> r.providers[n] == u.providers[n]
  {
    u.(providers := u.providers[p.name := p])
  }

  /** Append domains to the registered ones, keeping their order. */
  function RegisterDomains(u: Updater, ds: seq<Domain>): (r: Updater)
    ensures r.providers == u.providers
    ensures |r.domains| == |u.domains| + |ds|
    ensures forall i :: 0 <= i < |u.domains| ==> r.domains[i] == u.domains[i]
    ensures forall j :: 0 <= j < |ds| ==> r.domains[|u.domains| + j] == ds[j]
  {
    u.(domains := u.domains + ds)
  }

  /** A call the updater makes on a provider, tagged with the name it was found under. */
  datatype Call =
    | RecordsCall(provider: string, domain: Domain)
    | UpdateRecordCall(provider: string, record: ProviderRecord)

  /** The records that need an update, in provider order, each with its content set to
      the IP (`Seqs.FilterMapAppend` states the order and multiplicity). */
  function Pending(records: seq<ProviderRecord>, ip: string): (r: seq<ProviderRecord>)
    ensures |r| <= |records|
    ensures forall x :: x in r ==>
              x.content == ip &&
              exists i :: 0 <= i < |records| && records[i].content != ip && x == records[i].(content := ip)
    ensures forall i :: 0 <= i < |records| && records[i].content != ip ==> records[i].(content := ip) in r
    ensures r == [] <==> forall i :: 0 <= i < |records| ==> records[i].content == ip
  {
    FilterMap(records, (x: ProviderRecord) => x.content != ip, (x: ProviderRecord) => x.(content := ip))
  }

  /** The record loop of `updateDomain`: skip records that already hold the IP, set the
      content of the others to the IP and update them, returning on the first error.
      It performs exactly the fail-fast run of the pending updates. */
  function UpdateRecords(p: Provider, records: seq<ProviderRecord>, ip: string): (o: Run<ProviderRecord>)
    ensures o == Execute(Pending(records, ip), p.updateRecord)
    decreases |records|
  {
    if |records| == 0 then Run(None, [])
    else if records[0].content == ip then
      FilterMapCons(records, (x: ProviderRecord) => x.content != ip, (x: ProviderRecord) => x.(content := ip));
      UpdateRecords(p, records[1..], ip)
    else
      var rec := records[0].(content := ip);
      FilterMapCons(records, (x: ProviderRecord) => x.content != ip, (x: ProviderRecord) => x.(content := ip));
      match p.updateRecord(rec)
      case Some(e) => Run(Some(e), [rec])
      case None =>
        var rest := UpdateRecords(p, records[1..], ip);
        Run(rest.err, [rec] + rest.calls)
  }

  function UpdateCalls(provider: string, records: seq<ProviderRecord>): (cs: seq<Call>)
    ensures |cs| == |records|
    ensures forall i :: 0 <= i < |cs| ==> cs[i] == UpdateRecordCall(provider, records[i])
  {
    seq(|records|, i requires 0 <= i < |records| => UpdateRecordCall(provider, records[i]))
  }

  /** `updateDomain`: find the domain's provider, fetch its records, update the stale
      ones. */
  function UpdateDomain(u: Updater, domain: Domain, ip: string): (o: Run<Call>)
    ensures domain.provider !in u.providers ==> o == Run(Some(ProviderNotFound), [])
    ensures domain.provider in u.providers ==>
              var p := u.providers[domain.provider];
              var f := p.records(domain);
              && |o.calls| >= 1
              && o.calls[0] == RecordsCall(domain.provider, domain)
              && (f.err.Some? ==> o == Run(Some(RecordsFailed(f.err.value)), [o.calls[0]]))
              && (f.err.None? ==>
                    var e := Execute(Pending(f.records, ip), p.updateRecord);
                    o.err == e.err && o.calls[1..] == UpdateCalls(domain.provider, e.calls))
    ensures o.err.None? <==>
              && domain.provider in u.providers
              && u.providers[domain.provider].records(domain).err.None?
              && forall x :: x in Pending(u.providers[domain.provider].records(domain).records, ip) ==>
                               u.providers[domain.provider].updateRecord(x).None?
    ensures forall i :: 1 <= i < |o.calls| ==> o.calls[i].UpdateRecordCall? && o.calls[i].record.content == ip
  {
    if domain.provider !in u.providers then Run(Some(ProviderNotFound), [])
    else
      var p := u.providers[domain.provider];
      var f := p.records(domain);
      var first := RecordsCall(domain.provider, domain);
      if f.err.Some? then Run(Some(RecordsFailed(f.err.value)), [first])
      else
        var run := UpdateRecords(p, f.records, ip);
        UpdateRecordsFacts(p, f.records, ip);
        var o := Run(run.err, [first] + UpdateCalls(domain.provider, run.calls));
        assert o.calls[1..] == UpdateCalls(domain.provider, run.calls);
        o
  }

  /** The record loop only sends records carrying the IP, and succeeds exactly when every
      pending update does. */
  lemma UpdateRecordsFacts(p: Provider, records: seq<ProviderRecord>, ip: string)
    ensures var run := UpdateRecords(p, records, ip);
            && (forall k :: 0 <= k < |run.calls| ==> run.calls[k].content == ip)
            && (run.err.None? <==> forall x :: x in Pending(records, ip) ==> p.updateRecord(x).None?)
  {
    var run := UpdateRecords(p, records, ip);
    var plan := Pending(records, ip);
    forall k | 0 <= k < |run.calls|
      ensures run.calls[k].content == ip
    {
      assert run.calls[k] == plan[k];
      assert plan[k] in plan;
    }
  }

  /** A domain whose records all hold the IP already costs one `Records` call and no
      update, whatever the provider's `UpdateRecord` would do. */
  lemma UpToDateDomainMakesNoUpdates(u: Updater, domain: Domain, ip: string)
    requires domain.provider in u.providers
    requires u.providers[domain.provider].records(domain).err.None?
    requires var rs := u.providers[domain.provider].records(domain).records;
             forall i :: 0 <= i < |rs| ==> rs[i].content == ip
    ensures UpdateDomain(u, domain, ip) == Run(None, [RecordsCall(domain.provider, domain)])
  {
    var o := UpdateDomain(u, domain, ip);
    assert o.calls == [o.calls[0]] + o.calls[1..];
  }

  /** Every record that does not hold the IP is updated when no update fails: one
      update call per stale record, in order, carrying the IP. */
  lemma SuccessfulDomainUpdatesEveryStaleRecord(u: Updater, domain: Domain, ip: string)
    requires UpdateDomain(u, domain, ip).err.None?
    ensures var rs := u.providers[domain.provider].records(domain).records;
            var o := UpdateDomain(u, domain, ip);
            && o.calls[1..] == UpdateCalls(domain.provider, Pending(rs, ip))
            && forall i :: 0 <= i < |rs| && rs[i].content != ip ==>
                 UpdateRecordCall(domain.provider, rs[i].(content := ip)) in o.calls
  {
    var rs := u.providers[domain.provider].records(domain).records;
    var o := UpdateDomain(u, domain, ip);
    forall i | 0 <= i < |rs| && rs[i].content != ip
      ensures UpdateRecordCall(domain.provider, rs[i].(content := ip)) in o.calls
    {
      var plan := Pending(rs, ip);
      var k :| 0 <= k < |plan| && plan[k] == rs[i].(content := ip);
      assert o.calls[1..][k] == UpdateRecordCall(domain.provider, rs[i].(content := ip));
    }
  }

  /** A domain whose provider was just registered is served by that provider. */
  lemma RegisteredProviderServes(u: Updater, p: Provider, domain: Domain, ip: string)
    requires domain.provider == p.name
    ensures var o := UpdateDomain(RegisterProvider(u, p), domain, ip);
            && o.calls[0] == RecordsCall(p.name, domain)
            && (o.err.None? <==>
                  p.records(domain).err.None? &&
                  forall x :: x in Pending(p.records(domain).records, ip) ==> p.updateRecord(x).None?)
  {
  }

  /** What one dispatched goroutine did: the domain, the correlation ID and IP it was
      given, and the outcome of `updateDomain` (an error is only logged). */
  datatype Task = Task(domain: Domain, correlationID: string, newIP: string, outcome: Run<Call>)

  /** `Update`: dispatch one task per registered domain, in order, each bracketed by the
      wait group. Tasks are independent, so they are modelled as running one after the
      other. */
  method Update(u: Updater, correlationID: string, ip: string)
    returns (tasks: seq<Task>, wg: seq<WaitGroup.Event>)
    ensures |tasks| == |u.domains|
    ensures forall i :: 0 <= i < |tasks| ==>
              tasks[i] == Task(u.domains[i], correlationID, ip, UpdateDomain(u, u.domains[i], ip))
    ensures WaitGroup.Balanced(wg) && WaitGroup.Adds(wg) == |u.domains|
  {
    tasks := [];
    wg := [];
    for i := 0 to |u.domains|
      invariant |tasks| == i
      invariant forall j :: 0 <= j < i ==>
                  tasks[j] == Task(u.domains[j], correlationID, ip, UpdateDomain(u, u.domains[j], ip))
      invariant WaitGroup.Balanced(wg) && WaitGroup.Adds(wg) == i
    {
      WaitGroup.AppendTask(wg);
      wg := wg + WaitGroup.Task;
      tasks := tasks + [Task(u.domains[i], correlationID, ip, UpdateDomain(u, u.domains[i], ip))];
    }
  }
}

=== FILE: upstream.dfy ===
/** Shapes of the records the upstream DNS APIs return, restricted to the fields the
    adapters read or write. The API clients themselves are parameters of each adapter. */
module Upstream {
  import opened Strconv

  /** A DigitalOcean domain record (`godo.DomainRecord`). Its ID is a Go `int`. */
  datatype DoRecord = DoRecord(id: Int64, typ: string, name: string, data: string)

  /** An edit request sent to DigitalOcean: the new data for one record of one domain. */
  datatype DoEdit = DoEdit(domain: string, id: Int64, data: string)

  /** A Cloudflare DNS record (`cloudflare.DNSRecord`). */
  datatype CfRecord = CfRecord(id: string, zoneId: string, name: string, typ: string, content: string)

  /** An update request sent to Cloudflare: the full record to store under a zone and ID. */
  datatype CfUpdate = CfUpdate(zoneId: string, recordId: string, rec: CfRecord)
}

=== FILE: waitgroup.dfy ===
/** The in-flight counter (`sync.WaitGroup`) both updaters use to let `Stop` wait for
    dispatched work: one `Add(1)` before each dispatch and one `Done()` when it ends. */
module WaitGroup {

  datatype Event = Add | Done

  /** Counter value after the events: adds minus dones. */
  function Counter(events: seq<Event>): int
    decreases |events|
  {
    if |events| == 0 then 0
    else Counter(events[..|events| - 1]) + (if events[|events| - 1] == Add then 1 else -1)
  }

  /** Number of `Add` events. */
  function Adds(events: seq<Event>): nat
    decreases |events|
  {
    if |events| == 0 then 0
    else Adds(events[..|events| - 1]) + (if events[|events| - 1] == Add then 1 else 0)
  }

  /** The counter never goes negative (Go panics if it does) and ends at zero, so a
      `Wait` after these events returns. */
  predicate Balanced(events: seq<Event>)
  {
    && Counter(events) == 0
    && forall k :: 0 <= k <= |events| ==> Counter(events[..k]) >= 0
  }

  /** One task's bracket: its `Add` and its `Done`. */
  const Task: seq<Event> := [Add, Done]

  /** Appending one bracketed task keeps the events balanced and adds one `Add`. */
  lemma AppendTask(events: seq<Event>)
    requires Balanced(events)
    ensures Balanced(events + Task)
    ensures Adds(events + Task) == Adds(events) + 1
  {
    var e := events + Task;
    assert e[..|e| - 1] == events + [Add];
    assert (events + [Add])[..|events|] == events;
    forall k | 0 <= k <= |e|
      ensures Counter(e[..k]) >= 0
    {
      if k <= |events| {
        assert e[..k] == events[..k];
      } else if k == |events| + 1 {
        assert e[..k] == events + [Add];
      } else {
        assert e[..k] == e;
      }
    }
  }
}
